=== FILE: README.md ===
# TmuxRunner in Dafny

A model of the core of TmuxRunner, a KRunner plugin. The plugin turns a query typed
in KRunner into matches. Each match attaches to a live tmux session, launches a
tmuxinator project, or starts a new tmux session. Running a chosen match starts a
terminal emulator whose arguments run the corresponding tmux command.

The model covers:

- **Query matching** (`TmuxRunner::match`), in modules `Query`, `Matching` and `Runner`. It has four steps:
  - the trailing-flag step, which chooses the emulator;
  - the tmuxinator project pass;
  - the attach pass, with relevance |query name| / |session|;
  - the new-session pass, which splits the rest of the query into a name and a path.
- **Dispatch** of a chosen match (`run`).
- **The runner object** (`class Runner.TmuxRunner`): its options, the tmuxinator project list and the live session list.
  - `reloadPluginConfiguration` refreshes the options and reads the project list from `tmuxinator ls` output.
  - `prepareForMatchSession` refreshes the session list.
- **Path resolution** (`filterPath`, module `PathResolver`): shortcut substitution, then home-directory expansion. Every occurrence of each shortcut key is replaced, and so is every '~' of a path that starts with one, as `QString::replace` does.
- **Session lines** (`fetchTmuxSessions`, module `SessionList`): the name before the first ':' of each line of `tmux ls` output.
- **Commands** (`executeAttatchCommand`, `executeCreateCommand`, module `Commands`): the program and argument list given to the emulator. This includes:
  - the per-emulator tables;
  - the custom templates;
  - the `-c path` option;
  - the tmuxinator rewrite, which cuts the arguments before the first "tmux" token. The yakuake, terminator and st rows hold no such token, so a tmuxinator launch through them fails (`Commands.TmuxinatorWithoutTmuxFails`);
  - the clean-up for an empty target.
- **Constants** (module `ApiConstants`): the flag table, the flag pattern and the line separator.

Qt's string operations are written out in module `Text`:
- `QString::replace` replaces every occurrence. An empty search string inserts the replacement at every position.
- `split` keeps empty parts.
- `QList::removeOne` and `removeAll`.
- `QMap::value` with a default.

Each regular expression of `match` is a function over `seq<char>`. `\w` is the ASCII class `[A-Za-z0-9_]`.

Relevance is a pair of naturals (numerator, denominator):
- 1 is `Full`, 1/1.
- 0.99 is `Almost`, 99/100.
- 0 is `Zero`, 0/1.
- An attach match of session `s` for query name `q` has relevance |q|/|s|.

The methods of `Runner.TmuxRunner` and the `FilterPath`, `FetchTmuxSessions` and `CreateCommand` methods follow the source's loops step by step. Each is proved equal to a function, and the properties are proved about those functions.

## Model

| member | source | states |
|---|---|---|
| ApiConstants.FlagTable | src/core/TmuxRunnerAPI.h:28-34 | the alias table has exactly five entries, k, y, t, s and c, each keyed by one letter a-z |
| ApiConstants.NoFlagSelectsYakuake | src/core/TmuxRunnerAPI.h:30 | no flag maps to the id "yakuake"; the y flag gives "yakuake-session" |
| ApiConstants.RemoveFlagPattern | src/core/TmuxRunnerAPI.h:35 | removing " ?-([a-z])$" leaves the text before the flag, and the removal takes the space before the '-' when there is one |
| PathResolver.ApplyShortcuts | src/core/TmuxRunnerAPI.cpp:13-16 | no contract: each shortcut key in turn is replaced everywhere in the text the earlier keys left; its properties are the rows of PathResolver.ShortcutsInOrder and PathResolver.FilterPath |
| PathResolver.ResolvePath | src/core/TmuxRunnerAPI.cpp:9-23 | the resolved path starts with the home directory or with '/'; an empty path gives the home directory |
| PathResolver.FilterPath | src/core/TmuxRunnerAPI.cpp:9-23 | the substitution loop followed by the home rules yields exactly the resolved path |
| PathResolver.ShortcutsInOrder | src/core/TmuxRunnerAPI.cpp:14-16 | shortcuts apply in key-list order, each one to the text the earlier ones produced |
| PathResolver.RelativeUnderHome | src/core/TmuxRunnerAPI.cpp:12-21 | a path that, after the shortcuts are applied, starts with neither '~' nor '/' is put under home + "/" |
| PathResolver.AbsoluteKept | src/core/TmuxRunnerAPI.cpp:12-22 | a path that, after the shortcuts are applied, starts with '/' is returned as it is |
| PathResolver.TildeFullyExpanded | src/core/TmuxRunnerAPI.cpp:17-18 | after a leading '~' the result starts with home; no '~' is left when home holds none |
| PathResolver.TildePieces | src/core/TmuxRunnerAPI.cpp:12-18 | after a leading '~' the result is the text between the '~'s, in order and unchanged, with home in place of each '~' |
| PathResolver.TildeThenRest | src/core/TmuxRunnerAPI.cpp:12-18 | "~" followed by a text without '~' resolves to home followed by that text, so "~/src" gives home + "/src" |
| PathResolver.ResolvedIsAbsolute | src/core/TmuxRunnerAPI.cpp:10-22 | with an absolute home directory every resolved path is absolute |
| SessionList.SessionName | src/core/TmuxRunnerAPI.cpp:32-33 | the name is the prefix of the line that ends at its first ':' |
| SessionList.SessionNames | src/core/TmuxRunnerAPI.cpp:30-35 | at most one name per line, and no name contains ':' |
| SessionList.FetchTmuxSessions | src/core/TmuxRunnerAPI.cpp:25-37 | the read loop returns the names of the lines that hold ':' |
| SessionList.SessionNamesAppend | src/core/TmuxRunnerAPI.cpp:30-35 | line order is kept: the names of a + b are the names of a followed by those of b |
| SessionList.SessionNamesMembers | src/core/TmuxRunnerAPI.cpp:30-35 | a name is reported if and only if some line with ':' carries it |
| Commands.AttachCommand | src/core/TmuxRunnerAPI.cpp:39-57 | a listed or unlisted emulator keeps its id and ends its arguments with a tmux attach on the target; custom takes the configured program, its arguments joined by spaces are the attach template with every "%name" replaced, and there is at least one argument and none holds a space, so the list is the template's pieces between spaces, an empty template giving one empty argument |
| Commands.CustomAttachArgs | src/core/TmuxRunnerAPI.cpp:47-52 | the custom attach arguments are exactly the pieces of the substituted template between spaces, empty pieces kept, so an absent template gives one empty argument |
| Commands.TmuxinatorRewrite | src/core/TmuxRunnerAPI.cpp:89-96 | the list is cut before its first "tmux", then `tmuxinator target` and the split extra arguments follow; it fails exactly when there is no "tmux" token |
| Commands.RewriteForTmuxinator | src/core/TmuxRunnerAPI.cpp:89-96 | the removeLast loop and the appends give the rewrite, or the failure of removeLast on an empty list |
| Commands.DropEmptyTarget | src/core/TmuxRunnerAPI.cpp:98-103 | the final list holds no empty token; with a named target only the empty tokens go |
| Commands.EmptyTargetDropsFirstFlags | src/core/TmuxRunnerAPI.cpp:98-103 | with an empty target, the final list is the input less one "-s", one "-t" and every empty token, counted as a multiset |
| Commands.FinishArgs | src/core/TmuxRunnerAPI.cpp:83-103 | the finished list holds no empty token, and only the tmuxinator action can fail |
| Commands.CreateTemplate | src/core/TmuxRunnerAPI.cpp:63-82 | no contract: the per-emulator argument table, each emulator's options written once; its rows are pinned by the rows of Commands.NewSessionCommand, Commands.TmuxinatorCommand, Commands.TmuxinatorWithoutTmuxFails, Commands.CustomCreateCommand and Commands.CreateCommand |
| Commands.CreateSpec | src/core/TmuxRunnerAPI.cpp:59-107 | a created command never has an empty argument, and only the tmuxinator action can fail |
| Commands.CreateCommand | src/core/TmuxRunnerAPI.cpp:59-107 | the step-by-step construction, with the program overwritten for custom, yields the create command |
| Commands.NewSessionCommand | src/core/TmuxRunnerAPI.cpp:63-86 | a named new session with any emulator but custom is the emulator's options, then `tmux new-session -s target -c path` |
| Commands.UnlistedEmulatorsAlike | src/core/TmuxRunnerAPI.cpp:63-82 | all ids outside yakuake, terminator, st and custom (so also "yakuake-session" and "konsole") get the same arguments |
| Commands.TmuxinatorCommand | src/core/TmuxRunnerAPI.cpp:80-96 | a tmuxinator launch through an unlisted emulator is `-e tmuxinator target` and the extra arguments, without empty tokens |
| Commands.TmuxinatorWithoutTmuxFails | src/core/TmuxRunnerAPI.cpp:63-93 | the yakuake, terminator and st rows have no "tmux" token for the tmuxinator action, so removeLast runs on an empty list |
| Commands.CustomCreateCommand | src/core/TmuxRunnerAPI.cpp:73-86 | a custom create command is the template with "%name" then "%path" replaced and split at spaces, followed by "-c path" unless the configured program is itself "custom" |
| Commands.PlainCreate | src/core/TmuxRunnerAPI.cpp:62-103 | without the tmuxinator action, a non-custom emulator runs its template, then "-c path", then the clean-up |
| Commands.UnnamedYakuakeCommand | src/core/TmuxRunnerAPI.cpp:99-103 | an unnamed yakuake session loses the first "-t" and the first "-s" and its empty tokens: `-e tmux new-session -c path` |
| Commands.UnnamedOtherCommand | src/core/TmuxRunnerAPI.cpp:99-103 | an unnamed session with another non-custom emulator loses "-s" and the empty name: its options, then `tmux new-session -c path` |
| Query.RunnerSeesFlag | src/runner/tmuxrunner.cpp:111 | no contract: the flag test, " -x" at the end of the term or a term that is exactly "-x"; its relation to the header pattern is the row of Query.RunnerFlagIsHeaderFlag |
| Query.ParseFlag | src/runner/tmuxrunner.cpp:109-124 | without a flag the term is unchanged and no program is chosen; a flag is cut off with its single leading space; a known letter chooses its id and the suffix " in " + id without "-session"; an unknown letter chooses no program and the suffix " default (invalid flag)" |
| Query.RunnerFlagIsHeaderFlag | src/runner/tmuxrunner.cpp:111 | the runner's flag test implies the header's pattern, but "ab-k" fits the pattern and is not seen as a flag |
| Query.FlagAfterText | src/runner/tmuxrunner.cpp:111-122 | text + " -x" is cut back to exactly the text, and x selects its table entry or none |
| Query.FlagAlone | src/runner/tmuxrunner.cpp:111-122 | a term that is only "-x" becomes empty |
| Query.FlagSuffixes | src/runner/tmuxrunner.cpp:116 | the suffixes are yakuake, konsole, terminator, st and custom |
| Query.ParseInator | src/runner/tmuxrunner.cpp:126-130 | "inator" and the spaces after it are removed; the filter is non-empty exactly when one space and a word character follow "inator"; the filter is then the maximal word and the arguments are what follows its spaces |
| Query.FilterAndArgs | src/runner/tmuxrunner.cpp:127-129 | the filter is the maximal leading run of word characters, and the arguments follow the spaces after it |
| Query.QueryName | src/runner/tmuxrunner.cpp:156 | the query name is the prefix of the term before its first space, or the whole term when it has no space |
| Query.InatorQueryName | src/runner/tmuxrunner.cpp:126-156 | after a tmuxinator query the attach pass's query name starts with the filter |
| Query.SplitNamePath | src/runner/tmuxrunner.cpp:172-174 | the name is a leading run of `[\w-]` followed by the end or a space, and the path is the text after the following spaces; without a name there is no path |
| Query.NamePathComplete | src/runner/tmuxrunner.cpp:172-174 | a run of name characters followed by the end or a space is found as the name |
| Query.NamePathNoMatch | src/runner/tmuxrunner.cpp:172-174 | a term that does not fit the expression gives an empty name and path |
| Matching.BaseData | src/runner/tmuxrunner.cpp:114-116 | the data every match starts from holds "program" exactly when the flag chose one |
| Matching.ParseQuery | src/runner/tmuxrunner.cpp:109-131 | the flag step is the query's flag parse; tmuxinator mode is on exactly when enabled and the term after the flag starts with "inator", and then the filter and arguments are the "inator" parse of that term; otherwise the term is kept whole |
| Matching.AttachDataAgrees | src/runner/tmuxrunner.cpp:161-162 | the shared data map carries nothing from earlier matches but the action and target, which each attach overwrites |
| Matching.Selected | src/runner/tmuxrunner.cpp:132-133 | the selected projects are exactly those that start with the filter |
| Matching.ProjectMatch | src/runner/tmuxrunner.cpp:134-151 | a project without a live session gets a create match of relevance 1 with action "tmuxinator", program, args and target; a live one gets an attach match of relevance 0.99 |
| Matching.ProjectStep | src/runner/tmuxrunner.cpp:133-151 | no contract: one project of the tmuxinator pass; its effect is the row of Matching.ProjectStepStateless |
| Matching.ProjectPass | src/runner/tmuxrunner.cpp:132-153 | no contract: the tmuxinator pass over the project list in order; its result is the row of Matching.ProjectPassStateless |
| Matching.ProjectPassStateless | src/runner/tmuxrunner.cpp:132-153 | the project pass adds exactly one match per project that starts with the filter, in order, and records exactly the live ones as attached |
| Matching.ProjectStepStateless | src/runner/tmuxrunner.cpp:133-152 | one project adds one match when selected and nothing otherwise |
| Matching.Candidates | src/runner/tmuxrunner.cpp:157-160 | the candidates are exactly the live sessions that start with the query name and are not attached projects |
| Matching.SessionMatch | src/runner/tmuxrunner.cpp:161-166 | an attach match has relevance at most 1, and equal to 1 exactly when the session is the query name |
| Matching.SessionMatches | src/runner/tmuxrunner.cpp:157-167 | one attach match per candidate, in order |
| Matching.SessionStep | src/runner/tmuxrunner.cpp:158-167 | no contract: one live session of the attach pass; its effect is the row of Matching.SessionStepStateless |
| Matching.SessionPass | src/runner/tmuxrunner.cpp:157-168 | no contract: the attach pass over the live sessions in order; its result is the row of Matching.SessionPassStateless |
| Matching.SessionPassStateless | src/runner/tmuxrunner.cpp:157-168 | the attach pass adds one match per candidate, in order, and sets the exact flag when the query name is a live session, attached or not |
| Matching.SessionStepStateless | src/runner/tmuxrunner.cpp:158-167 | one session adds its attach match when it is a candidate, and it sets the exact flag when it equals the query name |
| Matching.EarlierPasses | src/runner/tmuxrunner.cpp:108-168 | no contract: the project pass (in tmuxinator mode) then the attach pass, from the flag's data; its result is the row of Matching.EarlierPassesStateless |
| Matching.EarlierPassesStateless | src/runner/tmuxrunner.cpp:108-168 | before the new-session pass the matches are the project matches followed by the session matches, and the exact flag says whether the query name is a live session |
| Matching.NewSessionStep | src/runner/tmuxrunner.cpp:170-191 | no contract: the new-session pass; its promises are the row of Matching.NewSessionRule |
| Matching.MatchParsed | src/runner/tmuxrunner.cpp:108-193 | no contract: the three passes over a parsed query; the rows of Matching.EarlierPassesStateless, Matching.NewSessionRule and Matching.ExactMatchSuppressesNew state its properties |
| Matching.MatchSpec | src/runner/tmuxrunner.cpp:96-193 | no contract: match for a query after the trigger word, ParseQuery then MatchParsed; Runner.TmuxRunner.MatchQuery is proved equal to it |
| Matching.NewSessionRule | src/runner/tmuxrunner.cpp:170-191 | a new-session match is added only without an exact match, only when no match came before or the option is on, and not for an empty name without a path in tmuxinator mode; its relevance is 1 if it is alone and 0 otherwise; its data holds action "new", the name and the path |
| Matching.ExactMatchSuppressesNew | src/runner/tmuxrunner.cpp:159-170 | when the query name is a live session no new-session match is added |
| Matching.PlainQuery | src/runner/tmuxrunner.cpp:109-156 | a query with no flag, no "inator" prefix and no space is its own query name |
| Matching.TwoSessions | src/runner/tmuxrunner.cpp:156-170 | sessions q and q + ext give exactly two attach matches, of relevance 1 and \|q\|/\|q + ext\|, and no new-session match |
| Runner.ProjectList | src/runner/tmuxrunner.cpp:79-92 | no contract: the project list after reading `tmuxinator ls`; its properties are the rows of Runner.ShortListingKeepsProjects, Runner.ProjectListTokens, Runner.ProjectListColumns and Runner.ProjectListRoundTrip |
| Runner.ProjectListTokens | src/runner/tmuxrunner.cpp:79-92 | for output of more than two lines, no project name is empty or holds a space, and the names together spell the second line with its spaces removed |
| Runner.ProjectListColumns | src/runner/tmuxrunner.cpp:79-92 | for a header line, then a second line of pieces separated by single spaces (a padded column gives empty pieces), the project list is exactly the non-empty pieces, in order |
| Runner.ProjectListRoundTrip | src/runner/tmuxrunner.cpp:79-92 | for a header line, a line of space-joined project names and any rest, the project list is exactly those names |
| Runner.ShortListingKeepsProjects | src/runner/tmuxrunner.cpp:79-85 | output of at most two lines leaves the project list unchanged |
| Runner.Dispatch | src/runner/tmuxrunner.cpp:196-209 | the "attach" action always yields a command, which for a non-custom program runs that program (the match's or the default) and ends with a tmux attach on the target; only the "tmuxinator" action can fail; a created command holds no empty argument |
| Runner.SessionMatchAttaches | src/runner/tmuxrunner.cpp:161-205 | running an attach-pass match attaches to its session with the flag's emulator or the default one |
| Runner.ProjectMatchCreates | src/runner/tmuxrunner.cpp:134-207 | running a create match of the project pass creates through tmuxinator with the query's extra arguments |
| Runner.TmuxRunner.constructor | src/runner/tmuxrunner.cpp:18-39 | init binds the configuration and reads it once, so the options take their values or the defaults; when tmuxinator is enabled but `whereis` finds none, the configuration records it as disabled; the project list is read from `tmuxinator ls` when enabled and empty otherwise |
| Runner.TmuxRunner.PrepareForMatchSession | src/runner/tmuxrunner.cpp:41-43 | the live sessions become the names on the `tmux ls` lines |
| Runner.TmuxRunner.ReloadPluginConfiguration | src/runner/tmuxrunner.cpp:48-94 | the defaults are tmuxinator on, flags on, partial match off and "konsole"; a missing tmuxinator disables it and writes that back; otherwise the project list is refreshed from `tmuxinator ls`; the session list is unchanged |
| Runner.TmuxRunner.MatchQuery | src/runner/tmuxrunner.cpp:96-194 | the matches are those of the flag step, the project pass, the attach pass and the new-session pass, composed |
| Runner.TmuxRunner.FlagStep | src/runner/tmuxrunner.cpp:108-124 | the edited term, the suffix and the starting data are those of the flag step |
| Runner.TmuxRunner.ProjectLoop | src/runner/tmuxrunner.cpp:132-153 | the loop over the project list yields the project pass |
| Runner.TmuxRunner.SessionLoop | src/runner/tmuxrunner.cpp:157-168 | the loop over the live sessions yields the attach pass |
| Runner.TmuxRunner.NewSession | src/runner/tmuxrunner.cpp:170-191 | the last step yields the new-session pass |
| Runner.TmuxRunner.Run | src/runner/tmuxrunner.cpp:196-209 | running a match yields the dispatched command |

## Left out

- Plasma scaffolding is left out. This covers:
  - the plugin constructor;
  - config-file creation and the file watcher in `init`;
  - `createMatch`'s icon and `QueryMatch` object;
  - `context.isValid`, `addMatches` and the plugin export macro.
- Process execution is left out. `QProcess::startDetached` becomes the returned `Command`. The outputs of `whereis -b tmuxinator`, `tmuxinator ls` and `tmux ls` are parameters: a string for the first two and the list of lines for the third.
- KConfig is left out, including the reparse on file change. The configuration is a `ConfigSnapshot` value. `writeEntry("enable_tmuxinator", false)` is modelled only as the updated snapshot.
- The home directory is a parameter in place of `QDir::homePath`.
- The trigger word and `formatQueryRegex` are not part of this model. They are declared in tmuxrunner.h, which is not part of this model, so `MatchQuery` takes the query after those two steps.
- The runner's own `flags` member is declared in tmuxrunner.h, which is not part of this model. It is taken to be the table of TmuxRunnerAPI.h.
- `parseQueryFlags` and `fetchTmuxinatorConfigs` are declared without bodies in the files modelled, so they are not modelled.
- Matching.SessionMatch: relevance is a (numerator, denominator) pair, not a float. An empty session name gives 0/0, which the source's float division turns into NaN. Lengths are counted in characters, while `QString::length` and `QString::size` count UTF-16 code units (the relevance at src/runner/tmuxrunner.cpp:165 and the `term.size() == 2` flag test at line 111). The two differ outside the Basic Multilingual Plane: for query "a" and session "a😀" the source gives 1/3 and the model 1/2.
- Query.SplitNamePath, Query.ParseInator: `\w` is the ASCII class. The model does not cover Unicode letters or digits.
- Commands.TmuxinatorRewrite: `removeLast` on an empty list fails a Qt assertion, or is undefined behaviour in a release build. Both become `Failure(RemoveLastOnEmptyList)`.

=== FILE: api_constants.dfy ===
/** The constant data of the API object: the flag table, the flag pattern and the line separator. */
module ApiConstants {

  /** `tmux ls` prints one session per line, the name ending at the first ':'. */
  const LineSeparator: char := ':'

  /** The flag letters and the terminal emulator each one selects. */
  const Flags: map<string, string> := map[
    "k" := "konsole",
    "y" := "yakuake-session",
    "t" := "terminator",
    "s" := "st",
    "c" := "custom"
  ]

  /** `[a-z]` */
  predicate IsFlagLetter(c: char) {
    'a' <= c <= 'z'
  }

  /** `queryHasFlag`, " ?-([a-z])$": the string ends with '-' and one letter. */
  predicate HasFlagPattern(s: string) {
    |s| >= 2 && s[|s| - 2] == '-' && IsFlagLetter(s[|s| - 1])
  }

  /**
   * What removing the leftmost match of " ?-([a-z])$" leaves: the match takes
   * the space before the '-' when there is one.
   */
  function RemoveFlagPattern(s: string): (r: string)
    requires HasFlagPattern(s)
    ensures s == r + " -" + [s[|s| - 1]] || (s == r + "-" + [s[|s| - 1]] && !(r != [] && r[|r| - 1] == ' '))
  {
    if |s| >= 3 && s[|s| - 3] == ' ' then
      assert s == s[..|s| - 3] + " -" + [s[|s| - 1]];
      s[..|s| - 3]
    else
      assert s == s[..|s| - 2] + "-" + [s[|s| - 1]];
      s[..|s| - 2]
  }

  /** The table has five entries, one per letter, and each is named by a single flag letter. */
  lemma FlagTable()
    ensures Flags.Keys == {"k", "y", "t", "s", "c"}
    ensures |Flags| == 5
    ensures forall k :: k in Flags ==> |k| == 1 && IsFlagLetter(k[0])
  {
    assert Flags.Keys == {"k", "y", "t", "s", "c"};
  }

  /**
   * No flag selects the plain id "yakuake": the y flag gives "yakuake-session",
   * which the create command does not treat as yakuake.
   */
  lemma NoFlagSelectsYakuake()
    ensures "yakuake" !in Flags.Values
    ensures Flags["y"] == "yakuake-session"
  {
    forall v | v in Flags.Values
      ensures v != "yakuake"
    {
      var k :| k in Flags && Flags[k] == v;
      assert k in {"k", "y", "t", "s", "c"};
    }
  }
}

=== FILE: commands.dfy ===
/**
 * TmuxRunnerAPI::executeAttatchCommand and TmuxRunnerAPI::executeCreateCommand:
 * the program and argument list handed to QProcess::startDetached.
 */
module Commands {
  import opened Wrappers
  import opened Text
  import opened PathResolver

  /** The "Custom" configuration group; an absent entry reads as "". */
  datatype Custom = Custom(program: string, attachParams: string, newParams: string)

  /** A process to start detached. */
  datatype Command = Command(program: string, args: seq<string>)

  /** QList::removeLast on an empty list, where Qt fails an assertion. */
  datatype CreateError = RemoveLastOnEmptyList

  /** The tail of an argument list that runs `tmux attach` on `target`. */
  predicate IsTmuxAttach(tail: seq<string>, target: string) {
    tail == ["tmux", "a", "-t", target] || tail == ["tmux", "attach-session", "-t", target]
  }

  /**
   * The attach command: a known emulator keeps its id as the program and ends
   * its arguments with a tmux attach on the target; "custom" takes the program
   * from the configuration and its arguments are the attach template with
   * every "%name" replaced, cut at each space (empty pieces kept).
   */
  function AttachCommand(program: string, target: string, custom: Custom): (c: Command)
    ensures program != "custom" ==>
      c.program == program && |c.args| >= 4 && IsTmuxAttach(c.args[|c.args| - 4..], target)
    ensures program == "custom" ==>
      c.program == custom.program && Join(c.args, " ") == ReplaceAll(custom.attachParams, "%name", target)
    ensures program == "custom" ==> |c.args| >= 1 && forall a :: a in c.args ==> ' ' !in a
  {
    if program == "yakuake-session" then
      Command(program, ["-t", target, "-e", "tmux", "attach-session", "-t", target])
    else if program == "terminator" then
      Command(program, ["-x", "tmux", "a", "-t", target])
    else if program == "st" then
      Command(program, ["tmux", "attach-session", "-t", target])
    else if program == "custom" then
      var arg := ReplaceAll(custom.attachParams, "%name", target);
      JoinSplit(arg, ' ');
      Command(custom.program, Split(arg, ' '))
    else
      Command(program, ["-e", "tmux", "a", "-t", target])
  }

  /**
   * The custom attach arguments are exactly the pieces of the substituted
   * template between spaces; an empty template gives one empty argument.
   */
  lemma CustomAttachArgs(target: string, custom: Custom)
    ensures var c := AttachCommand("custom", target, custom);
      c.args == Split(ReplaceAll(custom.attachParams, "%name", target), ' ')
    ensures ReplaceAll(custom.attachParams, "%name", target) == [] ==>
      AttachCommand("custom", target, custom).args == [[]]
  {
    var c := AttachCommand("custom", target, custom);
    assert forall i :: 0 <= i < |c.args| ==> ' ' !in c.args[i] by {
      forall i | 0 <= i < |c.args| ensures ' ' !in c.args[i] {
        assert c.args[i] in c.args;
      }
    }
    SplitJoin(c.args, ' ');
  }

  /**
   * The arguments chosen by emulator before the path option, and the program,
   * which "custom" replaces by the configured one. Every other emulator puts
   * its options before `tmux new-session -s target`; the yakuake, terminator
   * and st rows put them before `tmuxinator target` for a tmuxinator launch.
   * Only the exact id "yakuake" has a yakuake row.
   */
  function CreateTemplate(program: string, target: string, viaTmuxinator: bool, custom: Custom, resolved: string): Command
  {
    if program == "custom" then
      Command(custom.program, Split(ReplaceAll(ReplaceAll(custom.newParams, "%name", target), "%path", resolved), ' '))
    else if viaTmuxinator && (program == "yakuake" || program == "terminator" || program == "st") then
      Command(program, CreatePrefix(program, target) + ["tmuxinator", target])
    else
      Command(program, CreatePrefix(program, target) + ["tmux", "new-session", "-s", target])
  }

  /** The options an emulator puts before the command it runs, one row per emulator. */
  function CreatePrefix(program: string, target: string): seq<string> {
    if program == "yakuake" then ["-t", target, "-e"]
    else if program == "terminator" then ["-x"]
    else if program == "st" then []
    else ["-e"]
  }

  /**
   * The tmuxinator rewrite: the list is cut before its first "tmux" and
   * `tmuxinator target` and the extra arguments follow. Without a "tmux" the
   * source's removeLast loop empties the list and removes once more.
   */
  function TmuxinatorRewrite(args: seq<string>, target: string, extra: string): (r: Result<seq<string>, CreateError>)
    ensures r.Failure? <==> "tmux" !in args
    ensures r.Success? ==>
      var cut := |r.value| - 2 - |Split(extra, ' ')|;
      && 0 <= cut < |args| && args[cut] == "tmux" && "tmux" !in args[..cut]
      && r.value == args[..cut] + ["tmuxinator", target] + Split(extra, ' ')
  {
    var idx := IndexOf(args, "tmux");
    if idx < 0 then Failure(RemoveLastOnEmptyList)
    else Success(args[..idx] + ["tmuxinator", target] + Split(extra, ' '))
  }

  /** The create command for the given program, target and match data. */
  function CreateSpec(program: string, target: string, data: map<string, string>,
                      home: string, shortcuts: Shortcuts, custom: Custom): (r: Result<Command, CreateError>)
    ensures r.Success? ==> "" !in r.value.args
    ensures r.Failure? ==> Lookup(data, "action", "") == "tmuxinator"
  {
    var action := Lookup(data, "action", "");
    var resolved := ResolvePath(Lookup(data, "path", ""), home, shortcuts);
    var t := CreateTemplate(program, target, action == "tmuxinator", custom, resolved);
    var args := FinishArgs(t.args, t.program != "custom", target, action, resolved, Lookup(data, "args", ""));
    if args.Success? then Success(Command(t.program, args.value)) else Failure(RemoveLastOnEmptyList)
  }

  /**
   * What follows the template: the path option when asked for, the tmuxinator
   * rewrite for that action, then the clean-up of an empty target.
   */
  function FinishArgs(template: seq<string>, pathOption: bool, target: string, action: string,
                      resolved: string, extra: string): (r: Result<seq<string>, CreateError>)
    ensures r.Success? ==> "" !in r.value
    ensures r.Failure? ==> action == "tmuxinator"
  {
    var withPath := if pathOption then template + ["-c", resolved] else template;
    var rewritten := if action == "tmuxinator" then TmuxinatorRewrite(withPath, target, extra) else Success(withPath);
    if rewritten.Success? then Success(DropEmptyTarget(rewritten.value, target)) else Failure(RemoveLastOnEmptyList)
  }

  /**
   * The last two steps: for an empty target the first "-s" and the first
   * "-t" go, then every empty token.
   */
  function DropEmptyTarget(args: seq<string>, target: string): (r: seq<string>)
    ensures "" !in r
    ensures target != "" ==> r == RemoveAll(args, "")
  {
    var named := if target == "" then RemoveFirst(RemoveFirst(args, "-s"), "-t") else args;
    RemoveAll(named, "")
  }

  /**
   * For an empty target exactly one "-s" and one "-t" go (when present),
   * with every empty token; all other tokens stay, as many times as before.
   */
  lemma EmptyTargetDropsFirstFlags(args: seq<string>)
    ensures multiset(DropEmptyTarget(args, "")) == ((multiset(args) - multiset{"-s"}) - multiset{"-t"})["" := 0]
  {
    RemoveFirstCount(args, "-s");
    RemoveFirstCount(RemoveFirst(args, "-s"), "-t");
    RemoveAllCount(RemoveFirst(RemoveFirst(args, "-s"), "-t"), "");
  }

  /** executeCreateCommand, building the list step by step as the source does. */
  method CreateCommand(program: string, target: string, data: map<string, string>,
                       home: string, shortcuts: Shortcuts, custom: Custom)
    returns (r: Result<Command, CreateError>)
    ensures r == CreateSpec(program, target, data, home, shortcuts, custom)
  {
    var action := Lookup(data, "action", "");
    var resolved := FilterPath(Lookup(data, "path", ""), home, shortcuts);
    var prog := program;
    var args: seq<string>;
    if program == "yakuake" {
      if action != "tmuxinator" {
        args := ["-t", target, "-e", "tmux", "new-session", "-s", target];
      } else {
        args := ["-t", target, "-e", "tmuxinator", target];
      }
    } else if program == "terminator" {
      if action != "tmuxinator" {
        args := ["-x", "tmux", "new-session", "-s", target];
      } else {
        args := ["-x", "tmuxinator", target];
      }
    } else if program == "st" {
      if action != "tmuxinator" {
        args := ["tmux", "new-session", "-s", target];
      } else {
        args := ["tmuxinator", target];
      }
    } else if program == "custom" {
      prog := custom.program;
      var arg := ReplaceAll(custom.newParams, "%name", target);
      arg := ReplaceAll(arg, "%path", resolved);
      args := Split(arg, ' ');
    } else {
      args := ["-e", "tmux", "new-session", "-s", target];
    }
    assert Command(prog, args) == CreateTemplate(program, target, action == "tmuxinator", custom, resolved);
    if prog != "custom" {
      args := args + ["-c", resolved];
    }
    if action == "tmuxinator" {
      var rewritten := RewriteForTmuxinator(args, target, Lookup(data, "args", ""));
      if rewritten.Failure? {
        return Failure(RemoveLastOnEmptyList);
      }
      args := rewritten.value;
    }
    if target == "" {
      args := RemoveFirst(args, "-s");
      args := RemoveFirst(args, "-t");
    }
    args := RemoveAll(args, "");
    r := Success(Command(prog, args));
  }

  /**
   * The tmuxinator step of executeCreateCommand: remove the last argument
   * until the list is no longer than the index of "tmux" (-1 when absent),
   * then append `tmuxinator target` and the extra arguments.
   */
  method RewriteForTmuxinator(args: seq<string>, target: string, extra: string)
    returns (r: Result<seq<string>, CreateError>)
    ensures r == TmuxinatorRewrite(args, target, extra)
  {
    var idx := IndexOf(args, "tmux");
    var kept := args;
    while |kept| > idx
      invariant |kept| <= |args| && kept == args[..|kept|]
      invariant idx >= 0 ==> |kept| >= idx
      decreases |kept|
    {
      if kept == [] {
        return Failure(RemoveLastOnEmptyList);
      }
      kept := kept[..|kept| - 1];
    }
    r := Success(kept + ["tmuxinator", target] + Split(extra, ' '));
  }

  /**
   * A named new session with any emulator but "custom" runs
   * `tmux new-session -s target -c path` behind the emulator's options.
   */
  lemma NewSessionCommand(program: string, target: string, data: map<string, string>,
                          home: string, shortcuts: Shortcuts, custom: Custom)
    requires program != "custom" && target != ""
    requires Lookup(data, "action", "") != "tmuxinator"
    requires home != [] && home[0] == '/'
    ensures var resolved := ResolvePath(Lookup(data, "path", ""), home, shortcuts);
      CreateSpec(program, target, data, home, shortcuts, custom)
      == Success(Command(program, CreatePrefix(program, target) + ["tmux", "new-session", "-s", target, "-c", resolved]))
  {
    var resolved := ResolvePath(Lookup(data, "path", ""), home, shortcuts);
    ResolvedIsAbsolute(Lookup(data, "path", ""), home, shortcuts);
    var args := CreatePrefix(program, target) + ["tmux", "new-session", "-s", target, "-c", resolved];
    assert CreateTemplate(program, target, false, custom, resolved).args + ["-c", resolved] == args;
    RemoveAllAbsent(args, "");
  }

  /**
   * Any id outside the table, "yakuake-session" and "konsole" included, gets
   * the same arguments: the yakuake row answers only to the exact id "yakuake".
   */
  lemma UnlistedEmulatorsAlike(p: string, q: string, target: string, data: map<string, string>,
                              home: string, shortcuts: Shortcuts, custom: Custom)
    requires p !in {"yakuake", "terminator", "st", "custom"}
    requires q !in {"yakuake", "terminator", "st", "custom"}
    ensures CreateSpec(p, target, data, home, shortcuts, custom).Success?
        <==> CreateSpec(q, target, data, home, shortcuts, custom).Success?
    ensures CreateSpec(p, target, data, home, shortcuts, custom).Success? ==>
      CreateSpec(p, target, data, home, shortcuts, custom).value.args
        == CreateSpec(q, target, data, home, shortcuts, custom).value.args
  {
    var resolved := ResolvePath(Lookup(data, "path", ""), home, shortcuts);
    var via := Lookup(data, "action", "") == "tmuxinator";
    assert CreateTemplate(p, target, via, custom, resolved) == Command(p, ["-e", "tmux", "new-session", "-s", target]);
    assert CreateTemplate(q, target, via, custom, resolved) == Command(q, ["-e", "tmux", "new-session", "-s", target]);
  }

  /**
   * Launching a tmuxinator project through an unlisted emulator: the list is
   * cut at "tmux", leaving "-e", then `tmuxinator target` and the extra
   * arguments follow, without empty tokens.
   */
  lemma TmuxinatorCommand(program: string, target: string, data: map<string, string>,
                          home: string, shortcuts: Shortcuts, custom: Custom)
    requires program !in {"yakuake", "terminator", "st", "custom"}
    requires target != ""
    requires Lookup(data, "action", "") == "tmuxinator"
    ensures CreateSpec(program, target, data, home, shortcuts, custom)
      == Success(Command(program, RemoveAll(["-e", "tmuxinator", target] + Split(Lookup(data, "args", ""), ' '), "")))
  {
    var resolved := ResolvePath(Lookup(data, "path", ""), home, shortcuts);
    var extra := Lookup(data, "args", "");
    var t := CreateTemplate(program, target, true, custom, resolved);
    var withPath := ["-e", "tmux", "new-session", "-s", target, "-c", resolved];
    var rewritten := ["-e", "tmuxinator", target] + Split(extra, ' ');
    assert t == Command(program, ["-e", "tmux", "new-session", "-s", target]);
    UnlistedRewrite(target, resolved, extra);
    assert FinishArgs(t.args, true, target, "tmuxinator", resolved, extra) == Success(RemoveAll(rewritten, "")) by {
      assert t.args + ["-c", resolved] == withPath;
    }
  }

  /** The unlisted row with its path option is cut before "tmux", keeping "-e". */
  lemma UnlistedRewrite(target: string, resolved: string, extra: string)
    ensures TmuxinatorRewrite(["-e", "tmux", "new-session", "-s", target, "-c", resolved], target, extra)
      == Success(["-e", "tmuxinator", target] + Split(extra, ' '))
  {
    var withPath := ["-e", "tmux", "new-session", "-s", target, "-c", resolved];
    assert IndexOf(withPath, "tmux") == 1;
    assert withPath[..1] == ["-e"];
    assert ["-e"] + ["tmuxinator", target] + Split(extra, ' ') == ["-e", "tmuxinator", target] + Split(extra, ' ');
  }

  /**
   * The yakuake, terminator and st rows already name tmuxinator and hold no
   * "tmux" token, so the rewrite fails for them (barring a target or path
   * that is literally "tmux").
   */
  lemma TmuxinatorWithoutTmuxFails(program: string, target: string, data: map<string, string>,
                                   home: string, shortcuts: Shortcuts, custom: Custom)
    requires program in {"yakuake", "terminator", "st"}
    requires target != "tmux"
    requires Lookup(data, "action", "") == "tmuxinator"
    requires home != [] && home[0] == '/'
    ensures CreateSpec(program, target, data, home, shortcuts, custom) == Failure(RemoveLastOnEmptyList)
  {
    var resolved := ResolvePath(Lookup(data, "path", ""), home, shortcuts);
    ResolvedIsAbsolute(Lookup(data, "path", ""), home, shortcuts);
    assert resolved != "tmux";
    var t := CreateTemplate(program, target, true, custom, resolved);
    var withPath := t.args + ["-c", resolved];
    assert t.program == program;
    if program == "yakuake" {
      assert withPath == ["-t", target, "-e", "tmuxinator", target, "-c", resolved];
    } else if program == "terminator" {
      assert withPath == ["-x", "tmuxinator", target, "-c", resolved];
    } else {
      assert withPath == ["tmuxinator", target, "-c", resolved];
    }
    assert "tmux" !in withPath;
    assert TmuxinatorRewrite(withPath, target, Lookup(data, "args", "")).Failure?;
  }

  /**
   * A custom create command: the template with "%name" and then "%path"
   * replaced, cut at spaces without empty tokens, followed by "-c path"
   * whenever the configured program is not itself called "custom".
   */
  lemma CustomCreateCommand(target: string, data: map<string, string>,
                            home: string, shortcuts: Shortcuts, custom: Custom)
    requires target != ""
    requires Lookup(data, "action", "") != "tmuxinator"
    requires home != [] && home[0] == '/'
    ensures var resolved := ResolvePath(Lookup(data, "path", ""), home, shortcuts);
      var subst := ReplaceAll(ReplaceAll(custom.newParams, "%name", target), "%path", resolved);
      CreateSpec("custom", target, data, home, shortcuts, custom)
      == Success(Command(custom.program,
           RemoveAll(Split(subst, ' '), "") + (if custom.program != "custom" then ["-c", resolved] else [])))
  {
    var resolved := ResolvePath(Lookup(data, "path", ""), home, shortcuts);
    ResolvedIsAbsolute(Lookup(data, "path", ""), home, shortcuts);
    var subst := ReplaceAll(ReplaceAll(custom.newParams, "%name", target), "%path", resolved);
    var template := Split(subst, ' ');
    assert CreateTemplate("custom", target, false, custom, resolved) == Command(custom.program, template);
    var action := Lookup(data, "action", "");
    if custom.program != "custom" {
      assert FinishArgs(template, true, target, action, resolved, Lookup(data, "args", ""))
          == Success(RemoveAll(template + ["-c", resolved], ""));
      RemoveAllAppend(template, ["-c", resolved], "");
      RemoveAllAbsent(["-c", resolved], "");
    } else {
      assert FinishArgs(template, false, target, action, resolved, Lookup(data, "args", ""))
          == Success(RemoveAll(template, ""));
      assert RemoveAll(template, "") + [] == RemoveAll(template, "");
    }
  }

  /**
   * An unnamed new session with yakuake: only the first "-s" and the first
   * "-t" are dropped, and the empty target values go with the empty tokens.
   */
  lemma UnnamedYakuakeCommand(data: map<string, string>, home: string, shortcuts: Shortcuts, custom: Custom)
    requires Lookup(data, "action", "") != "tmuxinator"
    requires home != [] && home[0] == '/'
    ensures var resolved := ResolvePath(Lookup(data, "path", ""), home, shortcuts);
      CreateSpec("yakuake", "", data, home, shortcuts, custom)
      == Success(Command("yakuake", ["-e", "tmux", "new-session", "-c", resolved]))
  {
    var resolved := ResolvePath(Lookup(data, "path", ""), home, shortcuts);
    var all := ["-t", ""] + (["-e", "tmux", "new-session"] + ["-s", "", "-c", resolved]);
    assert CreateTemplate("yakuake", "", false, custom, resolved).args + ["-c", resolved] == all;
    PlainCreate("yakuake", "", data, home, shortcuts, custom);
    assert DropEmptyTarget(all, "") == ["-e", "tmux", "new-session", "-c", resolved] by {
      ResolvedIsAbsolute(Lookup(data, "path", ""), home, shortcuts);
      UnnamedYakuake(resolved);
    }
  }

  /** An unnamed new session with any other emulator but "custom": the "-s" goes with the empty name. */
  lemma UnnamedOtherCommand(program: string, options: seq<string>, data: map<string, string>,
                            home: string, shortcuts: Shortcuts, custom: Custom)
    requires program !in {"custom", "yakuake"}
    requires options == if program == "terminator" then ["-x"] else if program == "st" then [] else ["-e"]
    requires Lookup(data, "action", "") != "tmuxinator"
    requires home != [] && home[0] == '/'
    ensures var resolved := ResolvePath(Lookup(data, "path", ""), home, shortcuts);
      CreateSpec(program, "", data, home, shortcuts, custom)
      == Success(Command(program, options + ["tmux", "new-session", "-c", resolved]))
  {
    var resolved := ResolvePath(Lookup(data, "path", ""), home, shortcuts);
    ResolvedIsAbsolute(Lookup(data, "path", ""), home, shortcuts);
    PlainCreate(program, "", data, home, shortcuts, custom);
    UnnamedOtherArgs(program, options, custom, resolved);
  }

  lemma UnnamedOtherArgs(program: string, options: seq<string>, custom: Custom, resolved: string)
    requires program !in {"custom", "yakuake"}
    requires options == if program == "terminator" then ["-x"] else if program == "st" then [] else ["-e"]
    requires resolved != [] && resolved[0] == '/'
    ensures DropEmptyTarget(CreateTemplate(program, "", false, custom, resolved).args + ["-c", resolved], "")
         == options + ["tmux", "new-session", "-c", resolved]
  {
    var lead := options + ["tmux", "new-session"];
    assert CreateTemplate(program, "", false, custom, resolved).args + ["-c", resolved] == lead + ["-s", "", "-c", resolved] by {
      assert CreateTemplate(program, "", false, custom, resolved).args == lead + ["-s", ""];
    }
    assert DropEmptyTarget(lead + ["-s", "", "-c", resolved], "") == options + ["tmux", "new-session", "-c", resolved] by {
      UnnamedTail(lead, resolved);
      assert lead + ["-c", resolved] == options + ["tmux", "new-session", "-c", resolved];
    }
  }

  /** Without the tmuxinator action, a listed or unlisted emulator runs its template, the path option and the clean-up. */
  lemma PlainCreate(program: string, target: string, data: map<string, string>,
                    home: string, shortcuts: Shortcuts, custom: Custom)
    requires program != "custom"
    requires Lookup(data, "action", "") != "tmuxinator"
    ensures var resolved := ResolvePath(Lookup(data, "path", ""), home, shortcuts);
      CreateSpec(program, target, data, home, shortcuts, custom)
      == Success(Command(program, DropEmptyTarget(CreateTemplate(program, target, false, custom, resolved).args + ["-c", resolved], target)))
  {
    var resolved := ResolvePath(Lookup(data, "path", ""), home, shortcuts);
    assert CreateTemplate(program, target, false, custom, resolved).program == program;
  }

  lemma UnnamedTail(lead: seq<string>, resolved: string)
    requires "-s" !in lead && "-t" !in lead && "" !in lead
    requires resolved !in {"", "-t"}
    ensures DropEmptyTarget(lead + ["-s", "", "-c", resolved], "") == lead + ["-c", resolved]
  {
    var tail := ["", "-c", resolved];
    assert lead + ["-s", "", "-c", resolved] == lead + (["-s"] + tail);
    RemoveFirstAfter(lead, ["-s"] + tail, "-s");
    assert "-t" !in lead + tail;
    RemoveAllAppend(lead, tail, "");
    RemoveAllAbsent(lead, "");
    assert tail == [""] + ["-c", resolved];
    RemoveAllAppend([""], ["-c", resolved], "");
    RemoveAllAbsent(["-c", resolved], "");
  }

  lemma UnnamedYakuake(resolved: string)
    requires resolved !in {"", "-t", "-s"}
    ensures DropEmptyTarget(["-t", ""] + (["-e", "tmux", "new-session"] + ["-s", "", "-c", resolved]), "")
         == ["-e", "tmux", "new-session", "-c", resolved]
  {
    var all := ["-t", ""] + (["-e", "tmux", "new-session"] + ["-s", "", "-c", resolved]);
    var rest := ["", "-e", "tmux", "new-session", "", "-c", resolved];
    YakuakeNamesRemoved(resolved);
    assert RemoveFirst(RemoveFirst(all, "-s"), "-t") == rest;
    YakuakeEmptiesRemoved(resolved);
  }

  lemma YakuakeNamesRemoved(resolved: string)
    requires resolved !in {"", "-t", "-s"}
    ensures RemoveFirst(RemoveFirst(["-t", ""] + (["-e", "tmux", "new-session"] + ["-s", "", "-c", resolved]), "-s"), "-t")
         == ["", "-e", "tmux", "new-session", "", "-c", resolved]
  {
    var lead := ["-t", "", "-e", "tmux", "new-session"];
    var tail := ["", "-c", resolved];
    assert ["-t", ""] + (["-e", "tmux", "new-session"] + ["-s", "", "-c", resolved]) == lead + (["-s"] + tail);
    RemoveFirstAfter(lead, ["-s"] + tail, "-s");
    var rest := ["", "-e", "tmux", "new-session"] + tail;
    assert lead + tail == ["-t"] + rest;
    assert RemoveFirst(["-t"] + rest, "-t") == rest;
  }

  lemma YakuakeEmptiesRemoved(resolved: string)
    requires resolved != ""
    ensures RemoveAll(["", "-e", "tmux", "new-session", "", "-c", resolved], "") == ["-e", "tmux", "new-session", "-c", resolved]
  {
    var rest := ["", "-e", "tmux", "new-session", "", "-c", resolved];
    assert rest == [""] + (["-e", "tmux", "new-session"] + ([""] + ["-c", resolved]));
    RemoveAllAppend([""], ["-e", "tmux", "new-session"] + ([""] + ["-c", resolved]), "");
    RemoveAllAppend(["-e", "tmux", "new-session"], [""] + ["-c", resolved], "");
    RemoveAllAppend([""], ["-c", resolved], "");
    RemoveAllAbsent(["-e", "tmux", "new-session"], "");
    RemoveAllAbsent(["-c", resolved], "");
  }
}

=== FILE: matching.dfy ===
/**
 * TmuxRunner::match as functions: the tmuxinator project pass, the attach
 * pass and the new-session pass, each threading the matches, the attached
 * projects, the shared data map and the exact-match flag as the source's
 * loops do; beside them, stateless descriptions of what each pass adds.
 */
module Matching {
  import opened Wrappers
  import opened Text
  import opened ApiConstants
  import opened Query

  /** A relevance num/den; the source computes it as a float. */
  datatype Relevance = Relevance(num: nat, den: nat)

  const Full := Relevance(1, 1)
  const Almost := Relevance(99, 100)
  const Zero := Relevance(0, 1)

  /** A query match: its text, its data (a QMap of strings) and its relevance. */
  datatype Match = Match(text: string, data: map<string, string>, relevance: Relevance)

  /** The runner's options, as the configuration was last read. */
  datatype Settings = Settings(enableTmuxinator: bool, enableFlags: bool, newByPartMatch: bool, defaultProgram: string)

  /** The state of match between passes: matches, attached projects, the shared data map, the exact flag. */
  datatype Pass = Pass(matches: seq<Match>, attached: seq<string>, data: map<string, string>, exact: bool)

  /** The data of an attach match: the current data with action "attach" and the target. */
  function AttachData(d: map<string, string>, target: string): map<string, string> {
    d["action" := "attach"]["target" := target]
  }

  // ---------------------------------------------------------------------
  // The tmuxinator project pass
  // ---------------------------------------------------------------------

  /**
   * One project: unless it starts with the filter nothing happens; a project
   * without a live session gets a create match with fresh data; a live one an
   * attach match on the shared data, and it is recorded as attached.
   */
  function ProjectStep(p: Pass, config: string, filter: string, args: string, openIn: string,
                       defaultProgram: string, sessions: seq<string>): Pass
  {
    if !StartsWith(config, filter) then p
    else if config !in sessions then
      var d := map["action" := "tmuxinator", "program" := Lookup(p.data, "program", defaultProgram),
                   "args" := args, "target" := config];
      p.(matches := p.matches + [Match("Create Tmuxinator  " + config + openIn, d, Full)])
    else
      var d := AttachData(p.data, config);
      p.(matches := p.matches + [Match("Attach Tmuxinator  " + config + openIn, d, Almost)],
         attached := p.attached + [config], data := d)
  }

  /** The loop over the projects, in list order. */
  function ProjectPass(p: Pass, configs: seq<string>, filter: string, args: string, openIn: string,
                       defaultProgram: string, sessions: seq<string>): Pass
    decreases |configs|
  {
    if configs == [] then p
    else
      ProjectStep(ProjectPass(p, configs[..|configs| - 1], filter, args, openIn, defaultProgram, sessions),
                  configs[|configs| - 1], filter, args, openIn, defaultProgram, sessions)
  }

  // ---------------------------------------------------------------------
  // The attach pass
  // ---------------------------------------------------------------------

  /**
   * One live session: if it starts with the query name it sets the exact
   * flag when equal, and unless attached already it gets an attach match
   * whose relevance is |q|/|session|.
   */
  function SessionStep(p: Pass, session: string, q: string, openIn: string): Pass {
    if !StartsWith(session, q) then p
    else
      var p1 := if session == q then p.(exact := true) else p;
      if session in p1.attached then p1
      else
        var d := AttachData(p1.data, session);
        p1.(data := d, matches := p1.matches + [Match("Attach to " + session + openIn, d, Relevance(|q|, |session|))])
  }

  /** The loop over the live sessions, in list order. */
  function SessionPass(p: Pass, sessions: seq<string>, q: string, openIn: string): Pass
    decreases |sessions|
  {
    if sessions == [] then p
    else SessionStep(SessionPass(p, sessions[..|sessions| - 1], q, openIn), sessions[|sessions| - 1], q, openIn)
  }

  // ---------------------------------------------------------------------
  // The new-session pass
  // ---------------------------------------------------------------------

  /**
   * Without an exact match, and when nothing matched so far or partial
   * matches may add a new session, the rest of the query is split into a name
   * and a path; relevance is 1 only when nothing matched so far. A query
   * with neither name nor path adds nothing in tmuxinator mode.
   */
  function NewSessionStep(p: Pass, term: string, tmuxinator: bool, newByPartMatch: bool, openIn: string): Pass {
    if p.exact || (p.matches != [] && !newByPartMatch) then p
    else
      var np := SplitNamePath(term);
      var rel := if p.matches == [] then Full else Zero;
      var d := p.data["action" := "new"]["target" := np.name];
      if np.path == [] then
        if np.name != [] || !tmuxinator then
          p.(data := d, matches := p.matches + [Match("New session " + np.name + openIn, d, rel)])
        else p.(data := d)
      else
        var d' := d["path" := np.path];
        p.(data := d', matches := p.matches + [Match("New session " + np.name + " in " + np.path + openIn, d', rel)])
  }

  // ---------------------------------------------------------------------
  // The whole of match
  // ---------------------------------------------------------------------

  /** The data every pass starts from: the program a flag selected, if any. */
  function BaseData(f: FlagParse): (d: map<string, string>)
    ensures "action" !in d && "target" !in d
    ensures f.program.Some? <==> "program" in d
    ensures f.program.Some? ==> d["program"] == f.program.value
  {
    if f.program.Some? then map["program" := f.program.value] else map[]
  }

  /** The query once the flag and the tmuxinator prefix are taken off. */
  datatype Parsed = Parsed(flag: FlagParse, tmuxinator: bool, inator: InatorParse)

  function ParseQuery(query: string, s: Settings): (r: Parsed)
    ensures r.flag == ParseFlag(query, s.enableFlags)
    ensures r.tmuxinator <==> s.enableTmuxinator && StartsWith(r.flag.term, "inator")
    ensures r.tmuxinator ==> r.inator == ParseInator(r.flag.term)
    ensures !r.tmuxinator ==> r.inator == InatorParse("", "", r.flag.term)
  {
    var f := ParseFlag(query, s.enableFlags);
    if s.enableTmuxinator && StartsWith(f.term, "inator") then Parsed(f, true, ParseInator(f.term))
    else Parsed(f, false, InatorParse("", "", f.term))
  }

  /** The state after the project and attach passes over a parsed query. */
  function EarlierPasses(pq: Parsed, defaultProgram: string, configs: seq<string>, sessions: seq<string>): Pass {
    var start := Pass([], [], BaseData(pq.flag), false);
    var afterProjects :=
      if pq.tmuxinator then
        ProjectPass(start, configs, pq.inator.filter, pq.inator.args, pq.flag.openIn, defaultProgram, sessions)
      else start;
    SessionPass(afterProjects, sessions, QueryName(pq.inator.rest), pq.flag.openIn)
  }

  /** All three passes over a parsed query. */
  function MatchParsed(pq: Parsed, s: Settings, configs: seq<string>, sessions: seq<string>): seq<Match> {
    NewSessionStep(EarlierPasses(pq, s.defaultProgram, configs, sessions), pq.inator.rest, pq.tmuxinator,
                   s.newByPartMatch, pq.flag.openIn).matches
  }

  /** The matches match reports for a query (after the trigger word), the projects and the live sessions. */
  function MatchSpec(query: string, s: Settings, configs: seq<string>, sessions: seq<string>): seq<Match> {
    MatchParsed(ParseQuery(query, s), s, configs, sessions)
  }

  // ---------------------------------------------------------------------
  // Stateless descriptions of the passes
  // ---------------------------------------------------------------------

  /** The data map agrees with `base` on every key but "action" and "target". */
  ghost predicate Agrees(d: map<string, string>, base: map<string, string>) {
    forall k :: k != "action" && k != "target" ==> (k in d <==> k in base) && (k in d ==> d[k] == base[k])
  }

  /** The shared map only ever carries the last action and target over the base data. */
  lemma AttachDataAgrees(d: map<string, string>, base: map<string, string>, target: string)
    requires Agrees(d, base)
    ensures AttachData(d, target) == AttachData(base, target)
    ensures Agrees(AttachData(d, target), base)
  {
    var l := AttachData(d, target);
    var r := AttachData(base, target);
    assert l.Keys == r.Keys;
    forall k | k in l ensures l[k] == r[k] {
    }
  }

  /** The projects that start with the filter, in list order. */
  function Selected(configs: seq<string>, filter: string): (sel: seq<string>)
    ensures |sel| <= |configs|
    ensures forall c :: c in sel <==> c in configs && StartsWith(c, filter)
    decreases |configs|
  {
    if configs == [] then []
    else
      var last := configs[|configs| - 1];
      assert configs == configs[..|configs| - 1] + [last];
      Selected(configs[..|configs| - 1], filter) + (if StartsWith(last, filter) then [last] else [])
  }

  /** The names that are live sessions, in list order. */
  function Live(names: seq<string>, sessions: seq<string>): (live: seq<string>)
    ensures forall c :: c in live <==> c in names && c in sessions
    decreases |names|
  {
    if names == [] then []
    else
      var last := names[|names| - 1];
      assert names == names[..|names| - 1] + [last];
      Live(names[..|names| - 1], sessions) + (if last in sessions then [last] else [])
  }

  /** The match a selected project gets, whatever came before it. */
  function ProjectMatch(config: string, args: string, openIn: string, program: string,
                        base: map<string, string>, sessions: seq<string>): (m: Match)
    ensures config !in sessions ==>
      && m.relevance == Full
      && m.data == map["action" := "tmuxinator", "program" := program, "args" := args, "target" := config]
    ensures config in sessions ==>
      && m.relevance == Almost
      && m.data == AttachData(base, config)
    ensures m.data["target"] == config
  {
    if config !in sessions then
      Match("Create Tmuxinator  " + config + openIn,
            map["action" := "tmuxinator", "program" := program, "args" := args, "target" := config], Full)
    else
      Match("Attach Tmuxinator  " + config + openIn, AttachData(base, config), Almost)
  }

  /** One match per project in `names`, in order. */
  function ProjectMatches(names: seq<string>, args: string, openIn: string, program: string,
                          base: map<string, string>, sessions: seq<string>): (ms: seq<Match>)
    ensures |ms| == |names|
    ensures forall i :: 0 <= i < |names| ==> ms[i] == ProjectMatch(names[i], args, openIn, program, base, sessions)
  {
    seq(|names|, i requires 0 <= i < |names| => ProjectMatch(names[i], args, openIn, program, base, sessions))
  }

  /**
   * The project pass adds one match per project that starts with the filter,
   * in order, and records exactly the live ones as attached; the data map
   * keeps agreeing with the base data.
   */
  lemma {:induction false} ProjectPassStateless(p: Pass, configs: seq<string>, filter: string, args: string,
                                                openIn: string, defaultProgram: string, sessions: seq<string>,
                                                base: map<string, string>)
    requires Agrees(p.data, base)
    ensures var r := ProjectPass(p, configs, filter, args, openIn, defaultProgram, sessions);
      && r.matches == p.matches + ProjectMatches(Selected(configs, filter), args, openIn,
                                                 Lookup(base, "program", defaultProgram), base, sessions)
      && r.attached == p.attached + Live(Selected(configs, filter), sessions)
      && r.exact == p.exact
      && Agrees(r.data, base)
    decreases |configs|
  {
    ProjectPassData(p, configs, filter, args, openIn, defaultProgram, sessions, base);
    ProjectPassMatches(p, configs, filter, args, openIn, defaultProgram, sessions, base);
    ProjectPassAttached(p, configs, filter, args, openIn, defaultProgram, sessions, base);
  }

  lemma {:induction false} ProjectPassData(p: Pass, configs: seq<string>, filter: string, args: string,
                                           openIn: string, defaultProgram: string, sessions: seq<string>,
                                           base: map<string, string>)
    requires Agrees(p.data, base)
    ensures var r := ProjectPass(p, configs, filter, args, openIn, defaultProgram, sessions);
      r.exact == p.exact && Agrees(r.data, base)
    decreases |configs|
  {
    if configs != [] {
      var init := configs[..|configs| - 1];
      ProjectPassData(p, init, filter, args, openIn, defaultProgram, sessions, base);
      var q := ProjectPass(p, init, filter, args, openIn, defaultProgram, sessions);
      ProjectStepStateless(q, configs[|configs| - 1], filter, args, openIn, defaultProgram, sessions, base);
    }
  }

  lemma {:induction false} ProjectPassMatches(p: Pass, configs: seq<string>, filter: string, args: string,
                                              openIn: string, defaultProgram: string, sessions: seq<string>,
                                              base: map<string, string>)
    requires Agrees(p.data, base)
    ensures ProjectPass(p, configs, filter, args, openIn, defaultProgram, sessions).matches
         == p.matches + ProjectMatches(Selected(configs, filter), args, openIn,
                                       Lookup(base, "program", defaultProgram), base, sessions)
    decreases |configs|
  {
    var program := Lookup(base, "program", defaultProgram);
    if configs != [] {
      var init := configs[..|configs| - 1];
      var last := configs[|configs| - 1];
      ProjectPassMatches(p, init, filter, args, openIn, defaultProgram, sessions, base);
      ProjectPassData(p, init, filter, args, openIn, defaultProgram, sessions, base);
      var q := ProjectPass(p, init, filter, args, openIn, defaultProgram, sessions);
      ProjectStepStateless(q, last, filter, args, openIn, defaultProgram, sessions, base);
      SelectedSnoc(configs, filter, args, openIn, program, base, sessions);
    } else {
      assert |ProjectMatches([], args, openIn, program, base, sessions)| == 0;
    }
  }

  lemma {:induction false} ProjectPassAttached(p: Pass, configs: seq<string>, filter: string, args: string,
                                               openIn: string, defaultProgram: string, sessions: seq<string>,
                                               base: map<string, string>)
    requires Agrees(p.data, base)
    ensures ProjectPass(p, configs, filter, args, openIn, defaultProgram, sessions).attached
         == p.attached + Live(Selected(configs, filter), sessions)
    decreases |configs|
  {
    if configs != [] {
      var init := configs[..|configs| - 1];
      var last := configs[|configs| - 1];
      ProjectPassAttached(p, init, filter, args, openIn, defaultProgram, sessions, base);
      ProjectStepAttached(ProjectPass(p, init, filter, args, openIn, defaultProgram, sessions),
                          last, filter, args, openIn, defaultProgram, sessions);
      LiveSelectedSnoc(configs, filter, sessions);
    } else {
      assert p.attached + [] == p.attached;
    }
  }

  /** One project step records the project as attached exactly when it is selected and live. */
  lemma ProjectStepAttached(q: Pass, last: string, filter: string, args: string, openIn: string,
                            defaultProgram: string, sessions: seq<string>)
    ensures ProjectStep(q, last, filter, args, openIn, defaultProgram, sessions).attached
         == q.attached + (if StartsWith(last, filter) && last in sessions then [last] else [])
  {
  }

  /** The live selected projects grow by the last project when it is selected and live. */
  lemma LiveSelectedSnoc(configs: seq<string>, filter: string, sessions: seq<string>)
    requires configs != []
    ensures var last := configs[|configs| - 1];
      Live(Selected(configs, filter), sessions)
      == Live(Selected(configs[..|configs| - 1], filter), sessions)
         + (if StartsWith(last, filter) && last in sessions then [last] else [])
  {
    var sel := Selected(configs[..|configs| - 1], filter);
    var last := configs[|configs| - 1];
    if StartsWith(last, filter) {
      assert Selected(configs, filter) == sel + [last];
      assert (sel + [last])[..|sel|] == sel;
    } else {
      assert Selected(configs, filter) == sel;
    }
  }

  /** The matches of the selected projects grow by the last project when it is selected. */
  lemma SelectedSnoc(configs: seq<string>, filter: string, args: string, openIn: string, program: string,
                     base: map<string, string>, sessions: seq<string>)
    requires configs != []
    ensures var init := configs[..|configs| - 1];
      var last := configs[|configs| - 1];
      ProjectMatches(Selected(configs, filter), args, openIn, program, base, sessions)
      == ProjectMatches(Selected(init, filter), args, openIn, program, base, sessions)
         + (if StartsWith(last, filter) then [ProjectMatch(last, args, openIn, program, base, sessions)] else [])
  {
    var init := configs[..|configs| - 1];
    var last := configs[|configs| - 1];
    var sel := Selected(init, filter);
    if StartsWith(last, filter) {
      assert Selected(configs, filter) == sel + [last];
      ProjectMatchesSnoc(sel, last, args, openIn, program, base, sessions);
    } else {
      assert Selected(configs, filter) == sel;
    }
  }

  lemma ProjectMatchesSnoc(sel: seq<string>, last: string, args: string, openIn: string, program: string,
                           base: map<string, string>, sessions: seq<string>)
    ensures ProjectMatches(sel + [last], args, openIn, program, base, sessions)
         == ProjectMatches(sel, args, openIn, program, base, sessions)
            + [ProjectMatch(last, args, openIn, program, base, sessions)]
  {
  }

  /** One project step, described without the shared state. */
  lemma ProjectStepStateless(p: Pass, config: string, filter: string, args: string, openIn: string,
                             defaultProgram: string, sessions: seq<string>, base: map<string, string>)
    requires Agrees(p.data, base)
    ensures var r := ProjectStep(p, config, filter, args, openIn, defaultProgram, sessions);
      var program := Lookup(base, "program", defaultProgram);
      && r.matches == p.matches + (if StartsWith(config, filter)
                                   then [ProjectMatch(config, args, openIn, program, base, sessions)] else [])
      && r.attached == p.attached + (if StartsWith(config, filter) && config in sessions then [config] else [])
      && r.exact == p.exact
      && Agrees(r.data, base)
  {
    assert Lookup(p.data, "program", defaultProgram) == Lookup(base, "program", defaultProgram);
    if StartsWith(config, filter) && config in sessions {
      AttachDataAgrees(p.data, base, config);
    }
  }

  /** The sessions that start with the query name and are not attached projects, in order. */
  function Candidates(sessions: seq<string>, q: string, attached: seq<string>): (cs: seq<string>)
    ensures |cs| <= |sessions|
    ensures forall s :: s in cs <==> s in sessions && StartsWith(s, q) && s !in attached
    decreases |sessions|
  {
    if sessions == [] then []
    else
      var last := sessions[|sessions| - 1];
      assert sessions == sessions[..|sessions| - 1] + [last];
      Candidates(sessions[..|sessions| - 1], q, attached) + (if StartsWith(last, q) && last !in attached then [last] else [])
  }

  /** The attach match of a session that starts with the query name. */
  function SessionMatch(session: string, q: string, openIn: string, base: map<string, string>): (m: Match)
    requires StartsWith(session, q)
    ensures m.data == AttachData(base, session)
    ensures m.relevance.num <= m.relevance.den
    ensures m.relevance.num == m.relevance.den <==> session == q
  {
    assert |q| == |session| ==> session == q by {
      if |q| == |session| {
        assert session[..|q|] == session;
      }
    }
    Match("Attach to " + session + openIn, AttachData(base, session), Relevance(|q|, |session|))
  }

  /** One attach match per candidate, in order. */
  function SessionMatches(cands: seq<string>, q: string, openIn: string, base: map<string, string>): (ms: seq<Match>)
    requires forall s :: s in cands ==> StartsWith(s, q)
    ensures |ms| == |cands|
    ensures forall i :: 0 <= i < |cands| ==> ms[i] == SessionMatch(cands[i], q, openIn, base)
  {
    seq(|cands|, i requires 0 <= i < |cands| => SessionMatch(cands[i], q, openIn, base))
  }

  /**
   * The attach pass adds one match per live session that starts with the
   * query name and is not an attached project, in order; the exact flag is
   * set when the query name is a live session, attached or not.
   */
  lemma {:induction false} SessionPassStateless(p: Pass, sessions: seq<string>, q: string, openIn: string,
                                                base: map<string, string>)
    requires Agrees(p.data, base)
    ensures var r := SessionPass(p, sessions, q, openIn);
      && r.matches == p.matches + SessionMatches(Candidates(sessions, q, p.attached), q, openIn, base)
      && r.attached == p.attached
      && r.exact == (p.exact || q in sessions)
      && Agrees(r.data, base)
    decreases |sessions|
  {
    if sessions != [] {
      var init := sessions[..|sessions| - 1];
      var last := sessions[|sessions| - 1];
      assert sessions == init + [last];
      SessionPassStateless(p, init, q, openIn, base);
      var r0 := SessionPass(p, init, q, openIn);
      SessionStepStateless(r0, last, q, openIn, base);
      var cs := Candidates(init, q, p.attached);
      if StartsWith(last, q) && last !in p.attached {
        assert Candidates(sessions, q, p.attached) == cs + [last];
        SessionMatchesSnoc(cs, last, q, openIn, base);
      } else {
        assert Candidates(sessions, q, p.attached) == cs;
      }
    }
  }

  /** One session step, described without the shared state. */
  lemma SessionStepStateless(p: Pass, session: string, q: string, openIn: string, base: map<string, string>)
    requires Agrees(p.data, base)
    ensures var r := SessionStep(p, session, q, openIn);
      && r.matches == p.matches + (if StartsWith(session, q) && session !in p.attached
                                   then [SessionMatch(session, q, openIn, base)] else [])
      && r.attached == p.attached
      && r.exact == (p.exact || session == q)
      && Agrees(r.data, base)
  {
    if StartsWith(session, q) && session !in p.attached {
      AttachDataAgrees(p.data, base, session);
    }
    if session == q {
      assert StartsWith(session, q);
    }
  }

  lemma SessionMatchesSnoc(cs: seq<string>, last: string, q: string, openIn: string, base: map<string, string>)
    requires forall s :: s in cs ==> StartsWith(s, q)
    requires StartsWith(last, q)
    ensures SessionMatches(cs + [last], q, openIn, base)
         == SessionMatches(cs, q, openIn, base) + [SessionMatch(last, q, openIn, base)]
  {
  }

  /** The projects the pass attaches to: those starting with the filter that are live sessions. */
  function AttachedProjects(pq: Parsed, configs: seq<string>, sessions: seq<string>): seq<string> {
    if pq.tmuxinator then Live(Selected(configs, pq.inator.filter), sessions) else []
  }

  /**
   * The first two passes without shared state: the project matches (in
   * tmuxinator mode), then the attach matches of the sessions starting with
   * the query name that are not attached projects; exact holds iff the query
   * name is a live session.
   */
  lemma EarlierPassesStateless(pq: Parsed, defaultProgram: string, configs: seq<string>, sessions: seq<string>)
    ensures var base := BaseData(pq.flag);
      var q := QueryName(pq.inator.rest);
      var r := EarlierPasses(pq, defaultProgram, configs, sessions);
      && r.matches == (if pq.tmuxinator
                       then ProjectMatches(Selected(configs, pq.inator.filter), pq.inator.args, pq.flag.openIn,
                                           Lookup(base, "program", defaultProgram), base, sessions)
                       else [])
                      + SessionMatches(Candidates(sessions, q, AttachedProjects(pq, configs, sessions)), q, pq.flag.openIn, base)
      && r.exact == (q in sessions)
      && Agrees(r.data, base)
  {
    var base := BaseData(pq.flag);
    var start := Pass([], [], base, false);
    if pq.tmuxinator {
      ProjectPassStateless(start, configs, pq.inator.filter, pq.inator.args, pq.flag.openIn, defaultProgram, sessions, base);
      var mid := ProjectPass(start, configs, pq.inator.filter, pq.inator.args, pq.flag.openIn, defaultProgram, sessions);
      var pm := ProjectMatches(Selected(configs, pq.inator.filter), pq.inator.args, pq.flag.openIn,
                               Lookup(base, "program", defaultProgram), base, sessions);
      assert mid.matches == pm by {
        assert [] + pm == pm;
      }
      assert mid.attached == AttachedProjects(pq, configs, sessions) by {
        assert [] + Live(Selected(configs, pq.inator.filter), sessions) == Live(Selected(configs, pq.inator.filter), sessions);
      }
      SessionPassStateless(mid, sessions, QueryName(pq.inator.rest), pq.flag.openIn, base);
    } else {
      SessionPassStateless(start, sessions, QueryName(pq.inator.rest), pq.flag.openIn, base);
      var sm := SessionMatches(Candidates(sessions, QueryName(pq.inator.rest), []), QueryName(pq.inator.rest), pq.flag.openIn, base);
      assert [] + sm == sm;
    }
  }

  /**
   * The new-session pass adds at most one match, at the end: exactly when
   * there is no exact match, nothing matched before or partial matches may
   * add one, and there is a name or the query is not a tmuxinator one. Its
   * relevance is 1 when it is the only match and 0 otherwise; its data asks
   * for a new session named by the name and, if given, at the path.
   */
  lemma NewSessionRule(p: Pass, term: string, tmuxinator: bool, newByPartMatch: bool, openIn: string)
    ensures var r := NewSessionStep(p, term, tmuxinator, newByPartMatch, openIn);
      var np := SplitNamePath(term);
      var adds := !p.exact && (p.matches == [] || newByPartMatch) && (np.name != [] || !tmuxinator);
      && (!adds ==> r.matches == p.matches)
      && (adds ==>
            && |r.matches| == |p.matches| + 1
            && r.matches[..|p.matches|] == p.matches
            && var m := r.matches[|p.matches|];
               && m.relevance == (if p.matches == [] then Full else Zero)
               && m.data["action"] == "new"
               && m.data["target"] == np.name
               && (np.path != [] ==> m.data["path"] == np.path))
  {
    var r := NewSessionStep(p, term, tmuxinator, newByPartMatch, openIn);
    if !p.exact && (p.matches == [] || newByPartMatch) {
      var np := SplitNamePath(term);
      var d := p.data["action" := "new"]["target" := np.name];
      if np.path == [] {
        if np.name != [] || !tmuxinator {
          var m := Match("New session " + np.name + openIn, d, if p.matches == [] then Full else Zero);
          assert (p.matches + [m])[..|p.matches|] == p.matches;
        }
      } else {
        var m := Match("New session " + np.name + " in " + np.path + openIn, d["path" := np.path],
                       if p.matches == [] then Full else Zero);
        assert (p.matches + [m])[..|p.matches|] == p.matches;
      }
    }
  }

  /** When a live session equals the query name, no new session is offered, even if that session is an attached project. */
  lemma ExactMatchSuppressesNew(pq: Parsed, s: Settings, configs: seq<string>, sessions: seq<string>)
    requires QueryName(pq.inator.rest) in sessions
    ensures MatchParsed(pq, s, configs, sessions) == EarlierPasses(pq, s.defaultProgram, configs, sessions).matches
  {
    EarlierPassesStateless(pq, s.defaultProgram, configs, sessions);
  }

  /** A query with no flag, no "inator" prefix and no space is its own query name. */
  lemma PlainQuery(query: string, s: Settings)
    requires !RunnerSeesFlag(query) && !StartsWith(query, "inator") && ' ' !in query
    ensures ParseQuery(query, s) == Parsed(FlagParse(query, "", None), false, InatorParse("", "", query))
    ensures QueryName(query) == query
  {
  }

  /**
   * Two live sessions `query` and a longer one it starts: both are offered,
   * with relevance |query|/|query| and |query|/|session|, and the exact match
   * keeps the new session out.
   */
  lemma TwoSessions(query: string, ext: string, s: Settings, configs: seq<string>)
    requires !RunnerSeesFlag(query) && !StartsWith(query, "inator") && ' ' !in query && ext != []
    ensures MatchSpec(query, s, configs, [query, query + ext])
         == [Match("Attach to " + query, map["action" := "attach", "target" := query], Relevance(|query|, |query|)),
             Match("Attach to " + (query + ext), map["action" := "attach", "target" := query + ext],
                   Relevance(|query|, |query| + |ext|))]
  {
    var sessions := [query, query + ext];
    PlainQuery(query, s);
    var pq := ParseQuery(query, s);
    EarlierPassesStateless(pq, s.defaultProgram, configs, sessions);
    ExactMatchSuppressesNew(pq, s, configs, sessions);
    assert StartsWith(query + ext, query) by {
      assert (query + ext)[..|query|] == query;
    }
    assert Candidates(sessions, query, []) == sessions by {
      assert sessions[..1] == [query];
    }
    var ms := SessionMatches(sessions, query, "", map[]);
    assert MatchSpec(query, s, configs, sessions) == [] + ms;
    TwoSessionMatches(query, ext);
  }

  lemma TwoSessionMatches(query: string, ext: string)
    requires StartsWith(query + ext, query) && ext != []
    ensures SessionMatches([query, query + ext], query, "", map[])
         == [Match("Attach to " + query, map["action" := "attach", "target" := query], Relevance(|query|, |query|)),
             Match("Attach to " + (query + ext), map["action" := "attach", "target" := query + ext],
                   Relevance(|query|, |query| + |ext|))]
  {
    var ms := SessionMatches([query, query + ext], query, "", map[]);
    assert ms[0] == SessionMatch(query, query, "", map[]);
    assert ms[1] == SessionMatch(query + ext, query, "", map[]);
    assert "Attach to " + query + "" == "Attach to " + query;
    assert "Attach to " + (query + ext) + "" == "Attach to " + (query + ext);
  }
}

=== FILE: path_resolver.dfy ===
/** TmuxRunnerAPI::filterPath: shortcut substitution and home-directory expansion of a path. */
module PathResolver {
  import opened Text

  /**
   * The "Shortcuts" configuration group: (key, replacement) pairs in the order
   * its key list is read.
   */
  type Shortcuts = seq<(string, string)>

  /** Each shortcut in turn replaces every occurrence of its key in the text the earlier ones left. */
  function ApplyShortcuts(path: string, shortcuts: Shortcuts): string
    decreases |shortcuts|
  {
    if shortcuts == [] then path
    else
      var last := shortcuts[|shortcuts| - 1];
      ReplaceAll(ApplyShortcuts(path, shortcuts[..|shortcuts| - 1]), last.0, last.1)
  }

  /**
   * The resolved path: the home directory for an empty path; otherwise, after
   * the shortcuts, every '~' becomes the home directory when the text starts
   * with '~', and a text not starting with '/' is put under the home directory.
   */
  function ResolvePath(path: string, home: string, shortcuts: Shortcuts): (r: string)
    ensures StartsWith(r, home) || StartsWith(r, "/")
    ensures path == [] ==> r == home
  {
    if path == [] then home
    else
      var p := ApplyShortcuts(path, shortcuts);
      if p != [] && p[0] == '~' then
        assert p == [p[0]] + p[1..];
        assert ReplaceAll(p, "~", home) == home + ReplaceAll(p[1..], "~", home);
        ReplaceAll(p, "~", home)
      else if !(p != [] && p[0] == '/') then home + "/" + p
      else
        assert StartsWith(p, "/");
        p
  }

  /** filterPath, as the source computes it: substitution loop first, then the home rules. */
  method FilterPath(path: string, home: string, shortcuts: Shortcuts) returns (r: string)
    ensures r == ResolvePath(path, home, shortcuts)
  {
    if path == [] {
      return home;
    }
    r := path;
    for i := 0 to |shortcuts|
      invariant r == ApplyShortcuts(path, shortcuts[..i])
    {
      assert shortcuts[..i + 1][..i] == shortcuts[..i];
      r := ReplaceAll(r, shortcuts[i].0, shortcuts[i].1);
    }
    assert shortcuts[..|shortcuts|] == shortcuts;
    if r != [] && r[0] == '~' {
      r := ReplaceAll(r, "~", home);
    } else if !(r != [] && r[0] == '/') {
      r := home + "/" + r;
    }
  }

  /**
   * Shortcuts apply in order, each to the text the earlier ones produced:
   * applying a + b is applying a, then b.
   */
  lemma {:induction false} ShortcutsInOrder(path: string, a: Shortcuts, b: Shortcuts)
    ensures ApplyShortcuts(path, a + b) == ApplyShortcuts(ApplyShortcuts(path, a), b)
    decreases |b|
  {
    if b == [] {
      assert a + b == a;
    } else {
      var b' := b[..|b| - 1];
      assert (a + b)[..|a + b| - 1] == a + b';
      assert (a + b)[|a + b| - 1] == b[|b| - 1];
      ShortcutsInOrder(path, a, b');
    }
  }

  /**
   * A path whose substituted text is empty or starts with neither '~' nor '/'
   * is put under the home directory.
   */
  lemma RelativeUnderHome(path: string, home: string, shortcuts: Shortcuts)
    requires path != []
    requires var p := ApplyShortcuts(path, shortcuts); p == [] || (p[0] != '~' && p[0] != '/')
    ensures ResolvePath(path, home, shortcuts) == home + "/" + ApplyShortcuts(path, shortcuts)
  {
  }

  /** A path whose substituted text starts with '/' is that text, unchanged. */
  lemma AbsoluteKept(path: string, home: string, shortcuts: Shortcuts)
    requires path != []
    requires var p := ApplyShortcuts(path, shortcuts); p != [] && p[0] == '/'
    ensures ResolvePath(path, home, shortcuts) == ApplyShortcuts(path, shortcuts)
  {
  }

  /**
   * A path that starts with '~' after substitution has every '~' replaced:
   * it starts with the home directory and, when that holds no '~', none is left.
   */
  lemma {:induction false} TildeFullyExpanded(path: string, home: string, shortcuts: Shortcuts)
    requires path != []
    requires var p := ApplyShortcuts(path, shortcuts); p != [] && p[0] == '~'
    ensures StartsWith(ResolvePath(path, home, shortcuts), home)
    ensures '~' !in home ==> '~' !in ResolvePath(path, home, shortcuts)
  {
    var p := ApplyShortcuts(path, shortcuts);
    assert p == [p[0]] + p[1..];
    assert ReplaceAll(p, "~", home) == home + ReplaceAll(p[1..], "~", home);
    if '~' !in home {
      ReplaceCharRemovesIt(p, '~', home);
    }
  }

  /**
   * A path that starts with '~' after substitution keeps the text around each
   * '~': the result is the pieces between the '~'s with the home directory
   * between them, the first piece being empty.
   */
  lemma TildePieces(path: string, home: string, shortcuts: Shortcuts)
    requires path != []
    requires var p := ApplyShortcuts(path, shortcuts); p != [] && p[0] == '~'
    ensures var pieces := Split(ApplyShortcuts(path, shortcuts), '~');
      |pieces| >= 2 && pieces[0] == [] && ResolvePath(path, home, shortcuts) == Join(pieces, home)
  {
    var p := ApplyShortcuts(path, shortcuts);
    ReplaceCharPieces(p, '~', home);
  }

  /** "~" followed by a text without '~' resolves to the home directory followed by that text. */
  lemma {:induction false} TildeThenRest(path: string, home: string, shortcuts: Shortcuts, rest: string)
    requires path != []
    requires ApplyShortcuts(path, shortcuts) == "~" + rest && '~' !in rest
    ensures ResolvePath(path, home, shortcuts) == home + rest
  {
    ReplaceAllHit(rest, "~", home);
    ReplaceAllSkips(rest, [], "~", home);
    assert rest + [] == rest;
    assert ReplaceAll([], "~", home) == [];
  }

  /** When the home directory is absolute, every resolved path is absolute. */
  lemma ResolvedIsAbsolute(path: string, home: string, shortcuts: Shortcuts)
    requires home != [] && home[0] == '/'
    ensures var r := ResolvePath(path, home, shortcuts); r != [] && r[0] == '/'
  {
    var r := ResolvePath(path, home, shortcuts);
    if StartsWith(r, home) {
      assert r[0] == r[..|home|][0];
    }
  }
}

=== FILE: query.dfy ===
/**
 * The text steps of TmuxRunner::match, each regular expression written out as
 * a function: the trailing flag, the tmuxinator prefix, the query name of the
 * attach pass and the name/path split of the new-session pass.
 */
module Query {
  import opened Wrappers
  import opened Text
  import opened ApiConstants

  /** The character classes the expressions use: `\w`, `[\w-]` and the space. */
  datatype CharClass = Word | NameChar | Space

  predicate InClass(c: char, k: CharClass) {
    match k
    case Word => IsWordChar(c)
    case NameChar => IsWordChar(c) || c == '-'
    case Space => c == ' '
  }

  /** The length of the longest prefix of `s` whose characters are all in class `k`. */
  function Run(s: string, k: CharClass): (n: nat)
    ensures n <= |s|
    ensures forall i :: 0 <= i < n ==> InClass(s[i], k)
    ensures n < |s| ==> !InClass(s[n], k)
    decreases |s|
  {
    if s == [] || !InClass(s[0], k) then 0 else 1 + Run(s[1..], k)
  }

  /**
   * The flag test of match: `term` contains " -([a-z])$", or it is two
   * characters long and contains "-([a-z])$".
   */
  predicate RunnerSeesFlag(term: string) {
    || (|term| >= 3 && term[|term| - 3] == ' ' && term[|term| - 2] == '-' && IsFlagLetter(term[|term| - 1]))
    || (|term| == 2 && term[0] == '-' && IsFlagLetter(term[1]))
  }

  /** The term after the flag step, the suffix for the match texts, and the program the flag selects. */
  datatype FlagParse = FlagParse(term: string, openIn: string, program: Option<string>)

  /**
   * The flag step: when flags are enabled and one ends the term, its letter is
   * looked up in the flag table, the suffix says which emulator was chosen (or
   * that the letter is unknown) and the flag is cut off with its space.
   */
  function ParseFlag(term: string, enableFlags: bool): (r: FlagParse)
    ensures !(enableFlags && RunnerSeesFlag(term)) ==> r == FlagParse(term, "", None)
    ensures enableFlags && RunnerSeesFlag(term) ==>
      var letter := [term[|term| - 1]];
      && (term == r.term + " -" + letter || (term == "-" + letter && r.term == ""))
      && (letter in Flags ==> r.program == Some(Flags[letter]) && r.openIn == " in " + ReplaceAll(Flags[letter], "-session", ""))
      && (letter !in Flags ==> r.program == None && r.openIn == " default (invalid flag)")
  {
    if enableFlags && RunnerSeesFlag(term) then
      var letter := [term[|term| - 1]];
      var value := Lookup(Flags, letter, "");
      var rest := RemoveFlagPattern(term);
      if value != "" then FlagParse(rest, " in " + ReplaceAll(value, "-session", ""), Some(value))
      else FlagParse(rest, " default (invalid flag)", None)
    else FlagParse(term, "", None)
  }

  /**
   * The runner's test is narrower than the header's pattern: a flag glued to
   * the text before it is neither seen nor removed.
   */
  lemma RunnerFlagIsHeaderFlag(term: string)
    ensures RunnerSeesFlag(term) ==> HasFlagPattern(term)
    ensures HasFlagPattern("ab-k") && !RunnerSeesFlag("ab-k")
    ensures ParseFlag("ab-k", true).term == "ab-k"
  {
  }

  /** A flag after a space is cut off with the space, whatever precedes it. */
  lemma FlagAfterText(text: string, letter: char)
    requires IsFlagLetter(letter)
    ensures var r := ParseFlag(text + " -" + [letter], true);
      && r.term == text
      && ([letter] in Flags ==> r.program == Some(Flags[[letter]]))
      && ([letter] !in Flags ==> r.program == None && r.openIn == " default (invalid flag)")
  {
    var term := text + " -" + [letter];
    assert term[|term| - 3] == ' ' && term[|term| - 2] == '-' && term[|term| - 1] == letter;
    assert term[..|term| - 3] == text;
  }

  /** The suffixes the table's ids give: "-session" is dropped from "yakuake-session" only. */
  lemma FlagSuffixes()
    ensures ReplaceAll(Flags["y"], "-session", "") == "yakuake"
    ensures ReplaceAll(Flags["k"], "-session", "") == "konsole"
    ensures ReplaceAll(Flags["t"], "-session", "") == "terminator"
    ensures ReplaceAll(Flags["s"], "-session", "") == "st"
    ensures ReplaceAll(Flags["c"], "-session", "") == "custom"
  {
    YakuakeSuffix();
    TerminatorSuffix();
  }

  lemma YakuakeSuffix()
    ensures ReplaceAll("yakuake-session", "-session", "") == "yakuake"
  {
    assert "yakuake-session" == "yakuake" + "-session";
    ReplaceAllSkips("yakuake", "-session", "-session", "");
    ReplaceAllHit("", "-session", "");
  }

  lemma TerminatorSuffix()
    ensures ReplaceAll("terminator", "-session", "") == "terminator"
  {
    assert "terminator" == "terminator" + "";
    ReplaceAllSkips("terminator", "", "-session", "");
  }

  /** A flag alone is the whole term: the term becomes empty. */
  lemma FlagAlone(letter: char)
    requires IsFlagLetter(letter)
    ensures var r := ParseFlag("-" + [letter], true);
      && r.term == ""
      && ([letter] in Flags ==> r.program == Some(Flags[[letter]]) && r.openIn == " in " + ReplaceAll(Flags[[letter]], "-session", ""))
      && ([letter] !in Flags ==> r.program == None && r.openIn == " default (invalid flag)")
  {
    var term := "-" + [letter];
    assert RunnerSeesFlag(term) && term[|term| - 1] == letter;
  }

  /** The tmuxinator filter, its extra arguments, and the term once "inator" and its spaces are gone. */
  datatype InatorParse = InatorParse(filter: string, args: string, rest: string)

  /**
   * `inator(?: (\w+) *(.+)?)?` on a term that starts with "inator": the filter
   * is the word after a single space and the arguments whatever follows the
   * spaces after it; `^inator *` is removed from the term.
   */
  function ParseInator(term: string): (r: InatorParse)
    requires StartsWith(term, "inator")
    ensures Spaced(term, "inator", r.rest)
    ensures r.rest != [] ==> r.rest[0] != ' '
    ensures r.filter != [] <==> |term| >= 8 && term[6] == ' ' && IsWordChar(term[7])
    ensures r.filter == [] ==> r.args == []
    ensures r.filter != [] ==> term == "inator " + r.rest && WordThenRest(r.rest, r.filter, r.args)
  {
    var after := term[6..];
    var rest := DropSpaces(after);
    InatorRest(term, after, rest);
    if |after| >= 2 && after[0] == ' ' && IsWordChar(after[1]) then
      var fa := FilterAndArgs(after[1..]);
      InatorParse(fa.0, fa.1, rest)
    else
      InatorParse("", "", rest)
  }

  /** `^inator *` removed: the rest is the word after a single space when one follows. */
  lemma InatorRest(term: string, after: string, rest: string)
    requires StartsWith(term, "inator") && after == term[6..] && rest == DropSpaces(after)
    ensures Spaced(term, "inator", rest)
    ensures |after| >= 2 && after[0] == ' ' && IsWordChar(after[1]) ==> rest == after[1..] && term == "inator " + rest
  {
    var gap := Spaces(|after| - |rest|);
    assert term == "inator" + after;
    assert term == "inator" + gap + rest;
    if |after| >= 2 && after[0] == ' ' && IsWordChar(after[1]) {
      assert InClass(after[0], Space) && !InClass(after[1], Space);
      assert Run(after, Space) == 1;
      assert after == " " + rest;
      assert term == "inator" + (" " + rest);
    }
  }

  /** `(\w+) *(.+)?` at the start of `word`: the maximal word, then what follows its spaces. */
  function FilterAndArgs(word: string): (r: (string, string))
    requires word != [] && IsWordChar(word[0])
    ensures r.0 != [] && WordThenRest(word, r.0, r.1)
  {
    var w := Run(word, Word);
    var args := DropSpaces(word[w..]);
    WordSplit(word, w, args);
    (word[..w], args)
  }

  lemma WordSplit(word: string, w: nat, args: string)
    requires w == Run(word, Word) && args == DropSpaces(word[w..])
    ensures WordThenRest(word, word[..w], args)
  {
    var filter := word[..w];
    SpacedAfter(word, w, args);
    assert forall i :: 0 <= i < |filter| ==> IsWordChar(filter[i]) by {
      forall i | 0 <= i < |filter| ensures IsWordChar(filter[i]) {
        assert filter[i] == word[i] && InClass(word[i], Word);
      }
    }
    if w < |word| {
      assert !InClass(word[w], Word);
    }
  }

  /** Spaces, then `b`, after the first `w` characters. */
  lemma SpacedAfter(s: string, w: nat, b: string)
    requires w <= |s| && |b| <= |s| - w && s[w..] == Spaces(|s| - w - |b|) + b
    ensures Spaced(s, s[..w], b)
  {
    assert s == s[..w] + s[w..];
    assert s == s[..w] + Spaces(|s| - w - |b|) + b;
  }

  /** `s` is `a`, a run of spaces, then `b`. */
  predicate Spaced(s: string, a: string, b: string) {
    |a| + |b| <= |s| && s == a + Spaces(|s| - |a| - |b|) + b
  }

  /**
   * `s` is the maximal word `w` at its start, spaces, and `rest`, which does
   * not start with a space.
   */
  predicate WordThenRest(s: string, w: string, rest: string) {
    && Spaced(s, w, rest)
    && (forall i :: 0 <= i < |w| ==> IsWordChar(w[i]))
    && (|w| < |s| ==> !IsWordChar(s[|w|]))
    && (rest != [] ==> rest[0] != ' ')
  }

  /** `s` without its leading spaces. */
  function DropSpaces(s: string): (r: string)
    ensures |r| <= |s| && s == Spaces(|s| - |r|) + r
    ensures r != [] ==> r[0] != ' '
  {
    var n := Run(s, Space);
    assert s[..n] == Spaces(n);
    assert s == s[..n] + s[n..];
    s[n..]
  }

  /**
   * `term.split(' ').first()` when the term holds a space, the whole term
   * otherwise: the text before the first space.
   */
  function QueryName(term: string): (q: string)
    ensures StartsWith(term, q) && ' ' !in q
    ensures |q| < |term| ==> term[|q|] == ' '
    ensures ' ' !in term ==> q == term
  {
    if ' ' in term then
      SplitFirst(term, ' ');
      Split(term, ' ')[0]
    else term
  }

  /**
   * The attach pass after a tmuxinator query looks up sessions by the filter,
   * extended by whatever else precedes the first space.
   */
  lemma InatorQueryName(term: string)
    requires StartsWith(term, "inator")
    ensures var r := ParseInator(term);
      StartsWith(QueryName(r.rest), r.filter)
  {
    var r := ParseInator(term);
    if r.filter != [] {
      WordPrefixOfQueryName(r.rest, r.filter, r.args);
    }
  }

  lemma WordPrefixOfQueryName(rest: string, filter: string, args: string)
    requires WordThenRest(rest, filter, args)
    ensures StartsWith(QueryName(rest), filter)
  {
    assert rest == filter + (Spaces(|rest| - |filter| - |args|) + args);
    assert rest[..|filter|] == filter;
    assert ' ' !in filter by {
      forall i | 0 <= i < |filter| ensures filter[i] != ' ' {
        assert IsWordChar(filter[i]);
      }
    }
    PrefixOfQueryName(rest, filter);
  }

  /** A prefix without spaces is a prefix of the query name. */
  lemma PrefixOfQueryName(term: string, prefix: string)
    requires StartsWith(term, prefix) && ' ' !in prefix
    ensures StartsWith(QueryName(term), prefix)
  {
    var q := QueryName(term);
    assert q[..|prefix|] == term[..|prefix|];
  }

  /** The name and the path of a new session. */
  datatype NamePath = NamePath(name: string, path: string)

  /**
   * `^([\w-]+)(?: +(.+)?)?$`: a leading run of word characters and '-', then
   * either the end or spaces and a path taken verbatim; a term of any other
   * shape gives an empty name and path.
   */
  function SplitNamePath(term: string): (r: NamePath)
    ensures r.name == [] ==> r.path == []
    ensures r.name != [] ==>
      && Spaced(term, r.name, r.path)
      && (forall i :: 0 <= i < |r.name| ==> InClass(r.name[i], NameChar))
      && (|r.name| < |term| ==> term[|r.name|] == ' ')
      && (r.path != [] ==> r.path[0] != ' ')
  {
    var n := Run(term, NameChar);
    var tail := term[n..];
    var sp := Run(tail, Space);
    if n > 0 && (tail == [] || sp > 0) then
      assert tail[..sp] == Spaces(sp);
      assert term == term[..n] + Spaces(sp) + tail[sp..];
      NamePath(term[..n], tail[sp..])
    else NamePath("", "")
  }

  /**
   * The split finds the name whenever the expression matches: any non-empty
   * run of name characters followed by the end or a space is the name.
   */
  lemma NamePathComplete(term: string, n: nat)
    requires 0 < n <= |term|
    requires forall i :: 0 <= i < n ==> InClass(term[i], NameChar)
    requires n == |term| || term[n] == ' '
    ensures SplitNamePath(term).name == term[..n]
  {
  }

  /** A term that does not start with a name character, or whose name runs into another character, gives nothing. */
  lemma NamePathNoMatch(term: string)
    requires term == [] || !InClass(term[0], NameChar)
      || (Run(term, NameChar) < |term| && term[Run(term, NameChar)] != ' ')
    ensures SplitNamePath(term) == NamePath("", "")
  {
  }
}

=== FILE: runner.dfy ===
/**
 * The TmuxRunner object: its configuration fields, the project and session
 * lists it keeps, and the methods that refresh them, answer a query and run
 * a chosen match.
 */
module Runner {
  import opened Wrappers
  import opened Text
  import opened ApiConstants
  import opened PathResolver
  import opened SessionList
  import opened Commands
  import opened Query
  import opened Matching

  /**
   * The configuration as read: the "Config" group's entries (None when
   * absent) and the "Shortcuts" and "Custom" groups the API reads.
   */
  datatype ConfigSnapshot = ConfigSnapshot(enableTmuxinator: Option<bool>, enableFlags: Option<bool>,
                                           addNewByPartMatch: Option<bool>, program: Option<string>,
                                           shortcuts: Shortcuts, custom: Custom)

  /** What `whereis -b tmuxinator` prints when tmuxinator is not installed. */
  const NotInstalled := "tmuxinator:\n"

  /**
   * The project list after reading `tmuxinator ls`: output of two lines or
   * fewer leaves the list as it was; otherwise the list is the non-empty
   * space-separated tokens of the second line.
   */
  function ProjectList(current: seq<string>, output: string): seq<string> {
    var lines := Split(output, '\n');
    if |lines| == 2 || |lines| < 2 then current else RemoveAll(Split(lines[1], ' '), "")
  }

  /**
   * The tokens of the project list are non-empty, hold no space, and
   * together spell the second line without its spaces.
   */
  lemma ProjectListTokens(current: seq<string>, output: string)
    requires |Split(output, '\n')| > 2
    ensures var r := ProjectList(current, output);
      && "" !in r
      && (forall c :: c in r ==> ' ' !in c)
      && Concat(r) == RemoveAll(Split(output, '\n')[1], ' ')
  {
    var line := Split(output, '\n')[1];
    var tokens := Split(line, ' ');
    var r := RemoveAll(tokens, "");
    TokensCoverLine(line, ' ');
    RemoveAllCount(tokens, "");
    forall c | c in r ensures ' ' !in c {
      assert multiset(r)[c] > 0;
      assert c in multiset(tokens);
      var i :| 0 <= i < |tokens| && tokens[i] == c;
    }
  }

  /**
   * The listing read back: after a header line, the second line is the
   * project names joined by spaces, and the list becomes exactly those names.
   */
  lemma ProjectListRoundTrip(current: seq<string>, header: string, names: seq<string>, rest: string)
    requires '\n' !in header
    requires forall i :: 0 <= i < |names| ==> names[i] != [] && ' ' !in names[i] && '\n' !in names[i]
    ensures ProjectList(current, header + "\n" + Join(names, " ") + "\n" + rest) == names
  {
    var line := Join(names, " ");
    var output := header + "\n" + line + "\n" + rest;
    assert ProjectList(current, output) == RemoveAll(Split(line, ' '), "") by {
      JoinAvoids(names, ' ', '\n');
      ListingLines(header, line, rest);
    }
    if names == [] {
      assert Split(line, ' ') == [[]];
    } else {
      SplitJoin(names, ' ');
      RemoveAllAbsent(names, "");
    }
  }

  /**
   * The listing as `tmuxinator ls` prints it, in columns padded with runs of
   * spaces: the pieces between single spaces, empty ones included, come back
   * with the empty ones dropped.
   */
  lemma ProjectListColumns(current: seq<string>, header: string, pieces: seq<string>, rest: string)
    requires |pieces| >= 1 && '\n' !in header
    requires forall i :: 0 <= i < |pieces| ==> ' ' !in pieces[i] && '\n' !in pieces[i]
    ensures ProjectList(current, header + "\n" + Join(pieces, " ") + "\n" + rest) == RemoveAll(pieces, "")
  {
    JoinAvoids(pieces, ' ', '\n');
    ListingLines(header, Join(pieces, " "), rest);
    SplitJoin(pieces, ' ');
  }

  /** The lines of a header, a line and the rest, each header and line free of '\n'. */
  lemma ListingLines(header: string, line: string, rest: string)
    requires '\n' !in header && '\n' !in line
    ensures var lines := Split(header + "\n" + line + "\n" + rest, '\n');
      |lines| > 2 && lines[1] == line
  {
    var tail := "\n" + rest;
    assert header + "\n" + line + "\n" + rest == header + ("\n" + (line + tail));
    SplitAfterPiece(header, "\n" + (line + tail), '\n');
    assert Split("\n" + (line + tail), '\n') == [[]] + Split(line + tail, '\n');
    SplitAfterPiece(line, tail, '\n');
    assert Split(tail, '\n') == [[]] + Split(rest, '\n');
    assert header + [] == header && line + [] == line;
  }

  /** Output of at most two lines keeps the list. */
  lemma ShortListingKeepsProjects(current: seq<string>, output: string)
    requires |Split(output, '\n')| <= 2
    ensures ProjectList(current, output) == current
  {
  }

  /**
   * run: an "attach" action attaches with the program in the data (the
   * default program otherwise) to the target; any other action creates.
   */
  function Dispatch(data: map<string, string>, defaultProgram: string, home: string,
                    config: ConfigSnapshot): (r: Result<Command, CreateError>)
    ensures Lookup(data, "action", "") == "attach" ==> r.Success?
    ensures Lookup(data, "action", "") == "attach" && Lookup(data, "program", defaultProgram) != "custom" ==>
      var args := r.value.args;
      r.value.program == Lookup(data, "program", defaultProgram)
      && |args| >= 4 && IsTmuxAttach(args[|args| - 4..], Lookup(data, "target", ""))
    ensures r.Failure? ==> Lookup(data, "action", "") == "tmuxinator"
    ensures r.Success? && Lookup(data, "action", "") != "attach" ==> "" !in r.value.args
  {
    var program := Lookup(data, "program", defaultProgram);
    var target := Lookup(data, "target", "");
    if Lookup(data, "action", "") == "attach" then Success(AttachCommand(program, target, config.custom))
    else CreateSpec(program, target, data, home, config.shortcuts, config.custom)
  }

  /**
   * Running an attach match of the attach pass attaches to its session, with
   * the emulator the query's flag chose or else the default program.
   */
  lemma SessionMatchAttaches(session: string, q: string, openIn: string, f: FlagParse,
                             defaultProgram: string, home: string, config: ConfigSnapshot)
    requires StartsWith(session, q)
    ensures var m := SessionMatch(session, q, openIn, BaseData(f));
      var program := if f.program.Some? then f.program.value else defaultProgram;
      Dispatch(m.data, defaultProgram, home, config) == Success(AttachCommand(program, session, config.custom))
  {
    var m := SessionMatch(session, q, openIn, BaseData(f));
    assert m.data == BaseData(f)["action" := "attach"]["target" := session];
    assert Lookup(m.data, "program", defaultProgram) == (if f.program.Some? then f.program.value else defaultProgram);
  }

  /**
   * Running a create match of the project pass launches the project through
   * tmuxinator with the extra arguments of the query.
   */
  lemma ProjectMatchCreates(config: string, args: string, openIn: string, program: string,
                            base: map<string, string>, sessions: seq<string>, defaultProgram: string,
                            home: string, cfg: ConfigSnapshot)
    requires config !in sessions
    ensures var m := ProjectMatch(config, args, openIn, program, base, sessions);
      Dispatch(m.data, defaultProgram, home, cfg) == CreateSpec(program, config, m.data, home, cfg.shortcuts, cfg.custom)
      && Lookup(m.data, "action", "") == "tmuxinator" && Lookup(m.data, "args", "") == args
  {
  }

  class TmuxRunner {
    var enableTmuxinator: bool
    var enableFlags: bool
    var enableNewSessionByPartlyMatch: bool
    var defaultProgram: string
    var config: ConfigSnapshot
    var tmuxinatorConfigs: seq<string>
    var tmuxSessions: seq<string>

    /** The options match works with. */
    function CurrentSettings(): Settings
      reads this
    {
      Settings(enableTmuxinator, enableFlags, enableNewSessionByPartlyMatch, defaultProgram)
    }

    /**
     * init: bind the configuration and read it once. `whereisOutput` and
     * `lsOutput` are what `whereis -b tmuxinator` and `tmuxinator ls` print.
     */
    constructor (cfg: ConfigSnapshot, whereisOutput: string, lsOutput: string)
      ensures enableFlags == cfg.enableFlags.GetOr(true)
      ensures enableNewSessionByPartlyMatch == cfg.addNewByPartMatch.GetOr(false)
      ensures defaultProgram == cfg.program.GetOr("konsole")
      ensures enableTmuxinator == (cfg.enableTmuxinator.GetOr(true) && whereisOutput != NotInstalled)
      ensures config == if cfg.enableTmuxinator.GetOr(true) && whereisOutput == NotInstalled
                        then cfg.(enableTmuxinator := Some(false)) else cfg
      ensures tmuxinatorConfigs == if enableTmuxinator then ProjectList([], lsOutput) else []
      ensures tmuxSessions == []
    {
      enableTmuxinator := false;
      enableFlags := false;
      enableNewSessionByPartlyMatch := false;
      defaultProgram := "";
      config := cfg;
      tmuxinatorConfigs := [];
      tmuxSessions := [];
      new;
      ReloadPluginConfiguration(cfg, whereisOutput, lsOutput);
    }

    /** prepareForMatchSession: the live sessions are the names on the lines `tmux ls` printed. */
    method PrepareForMatchSession(lines: seq<string>)
      modifies this`tmuxSessions
      ensures tmuxSessions == SessionNames(lines)
    {
      tmuxSessions := FetchTmuxSessions(lines);
    }

    /**
     * reloadPluginConfiguration: read the options (with their defaults); when
     * tmuxinator is enabled but not installed, disable it and write that back;
     * otherwise refresh the project list from `tmuxinator ls`.
     */
    method ReloadPluginConfiguration(snapshot: ConfigSnapshot, whereisOutput: string, lsOutput: string)
      modifies this
      ensures enableFlags == snapshot.enableFlags.GetOr(true)
      ensures enableNewSessionByPartlyMatch == snapshot.addNewByPartMatch.GetOr(false)
      ensures defaultProgram == snapshot.program.GetOr("konsole")
      ensures enableTmuxinator == (snapshot.enableTmuxinator.GetOr(true) && whereisOutput != NotInstalled)
      ensures config == if snapshot.enableTmuxinator.GetOr(true) && whereisOutput == NotInstalled
                        then snapshot.(enableTmuxinator := Some(false)) else snapshot
      ensures tmuxinatorConfigs == if enableTmuxinator then ProjectList(old(tmuxinatorConfigs), lsOutput)
                                   else old(tmuxinatorConfigs)
      ensures tmuxSessions == old(tmuxSessions)
    {
      config := snapshot;
      enableTmuxinator := snapshot.enableTmuxinator.GetOr(true);
      enableFlags := snapshot.enableFlags.GetOr(true);
      enableNewSessionByPartlyMatch := snapshot.addNewByPartMatch.GetOr(false);
      defaultProgram := snapshot.program.GetOr("konsole");
      if enableTmuxinator {
        if whereisOutput == NotInstalled {
          enableTmuxinator := false;
          config := config.(enableTmuxinator := Some(false));
          return;
        }
        var lines := Split(lsOutput, '\n');
        if |lines| == 2 {
          return;
        }
        if |lines| < 2 {
          return;
        }
        var entries := Split(lines[1], ' ');
        tmuxinatorConfigs := [];
        for i := 0 to |entries|
          modifies this`tmuxinatorConfigs
          invariant tmuxinatorConfigs == RemoveAll(entries[..i], "")
        {
          assert entries[..i + 1] == entries[..i] + [entries[i]];
          RemoveAllAppend(entries[..i], [entries[i]], "");
          if entries[i] != "" {
            tmuxinatorConfigs := tmuxinatorConfigs + [entries[i]];
          }
        }
        assert entries[..|entries|] == entries;
      }
    }

    /** match, on the query that follows the trigger word. */
    method MatchQuery(query: string) returns (matches: seq<Match>)
      ensures matches == MatchSpec(query, CurrentSettings(), tmuxinatorConfigs, tmuxSessions)
    {
      ghost var pq := ParseQuery(query, CurrentSettings());
      var term, openIn, data := FlagStep(query);
      var tmuxinator := false;
      var p := Pass([], [], data, false);
      if enableTmuxinator && StartsWith(term, "inator") {
        var parsed := ParseInator(term);
        term := parsed.rest;
        tmuxinator := true;
        p := ProjectLoop(p, parsed.filter, parsed.args, openIn);
      }
      assert term == pq.inator.rest && tmuxinator == pq.tmuxinator;
      var queryName := QueryName(term);
      p := SessionLoop(p, queryName, openIn);
      assert p == EarlierPasses(pq, defaultProgram, tmuxinatorConfigs, tmuxSessions);
      p := NewSession(p, term, tmuxinator, openIn);
      matches := p.matches;
    }

    /**
     * The flag step of match: the term without its flag, the suffix for the
     * match texts, and the data every match starts from.
     */
    method FlagStep(query: string) returns (term: string, openIn: string, data: map<string, string>)
      ensures var f := ParseFlag(query, enableFlags);
        term == f.term && openIn == f.openIn && data == BaseData(f)
    {
      term := query;
      openIn := "";
      data := map[];
      if enableFlags {
        if RunnerSeesFlag(term) {
          var flag := [term[|term| - 1]];
          var flagValue := Lookup(Flags, flag, "");
          if flagValue != "" {
            data := data["program" := flagValue];
            openIn := " in " + ReplaceAll(flagValue, "-session", "");
          } else {
            openIn := " default (invalid flag)";
          }
          term := RemoveFlagPattern(term);
        }
      }
    }

    /** The tmuxinator loop of match over the project list. */
    method ProjectLoop(start: Pass, filter: string, args: string, openIn: string) returns (p: Pass)
      ensures p == ProjectPass(start, tmuxinatorConfigs, filter, args, openIn, defaultProgram, tmuxSessions)
    {
      var matches, attached, data, exactMatch := start.matches, start.attached, start.data, start.exact;
      var i := 0;
      while i < |tmuxinatorConfigs|
        invariant 0 <= i <= |tmuxinatorConfigs|
        invariant Pass(matches, attached, data, exactMatch)
               == ProjectPass(start, tmuxinatorConfigs[..i], filter, args, openIn, defaultProgram, tmuxSessions)
      {
        assert tmuxinatorConfigs[..i + 1][..i] == tmuxinatorConfigs[..i];
        var tmuxinatorConfig := tmuxinatorConfigs[i];
        if StartsWith(tmuxinatorConfig, filter) {
          if tmuxinatorConfig !in tmuxSessions {
            matches := matches + [Match("Create Tmuxinator  " + tmuxinatorConfig + openIn,
                                        map["action" := "tmuxinator", "program" := Lookup(data, "program", defaultProgram),
                                            "args" := args, "target" := tmuxinatorConfig], Full)];
          } else {
            attached := attached + [tmuxinatorConfig];
            data := data["action" := "attach"]["target" := tmuxinatorConfig];
            matches := matches + [Match("Attach Tmuxinator  " + tmuxinatorConfig + openIn, data, Almost)];
          }
        }
        i := i + 1;
      }
      assert tmuxinatorConfigs[..|tmuxinatorConfigs|] == tmuxinatorConfigs;
      p := Pass(matches, attached, data, exactMatch);
    }

    /** The attach loop of match over the live sessions. */
    method SessionLoop(start: Pass, queryName: string, openIn: string) returns (p: Pass)
      ensures p == SessionPass(start, tmuxSessions, queryName, openIn)
    {
      var matches, attached, data, exactMatch := start.matches, start.attached, start.data, start.exact;
      for i := 0 to |tmuxSessions|
        invariant Pass(matches, attached, data, exactMatch) == SessionPass(start, tmuxSessions[..i], queryName, openIn)
      {
        assert tmuxSessions[..i + 1][..i] == tmuxSessions[..i];
        var session := tmuxSessions[i];
        if StartsWith(session, queryName) {
          if session == queryName {
            exactMatch := true;
          }
          if session !in attached {
            data := data["action" := "attach"]["target" := session];
            matches := matches + [Match("Attach to " + session + openIn, data, Relevance(|queryName|, |session|))];
          }
        }
      }
      assert tmuxSessions[..|tmuxSessions|] == tmuxSessions;
      p := Pass(matches, attached, data, exactMatch);
    }

    /** The new-session step of match, offered unless a session matched exactly. */
    method NewSession(start: Pass, term: string, tmuxinator: bool, openIn: string) returns (p: Pass)
      ensures p == NewSessionStep(start, term, tmuxinator, enableNewSessionByPartlyMatch, openIn)
    {
      p := start;
      if !p.exact && (p.matches == [] || enableNewSessionByPartlyMatch) {
        var texts := SplitNamePath(term);
        var relevance := if p.matches == [] then Full else Zero;
        var data := p.data["action" := "new"]["target" := texts.name];
        if texts.path == [] {
          if texts.name != [] || !tmuxinator {
            p := p.(data := data, matches := p.matches + [Match("New session " + texts.name + openIn, data, relevance)]);
          } else {
            p := p.(data := data);
          }
        } else {
          data := data["path" := texts.path];
          p := p.(data := data, matches := p.matches + [Match("New session " + texts.name + " in " + texts.path + openIn, data, relevance)]);
        }
      }
    }

    /** run: the process the chosen match starts, as program and arguments. */
    method Run(data: map<string, string>, home: string) returns (r: Result<Command, CreateError>)
      ensures r == Dispatch(data, defaultProgram, home, config)
    {
      var program := Lookup(data, "program", defaultProgram);
      var target := Lookup(data, "target", "");
      if Lookup(data, "action", "") == "attach" {
        r := Success(AttachCommand(program, target, config.custom));
      } else {
        r := CreateCommand(program, target, data, home, config.shortcuts, config.custom);
      }
    }
  }
}

=== FILE: session_list.dfy ===
/** The line parsing of TmuxRunnerAPI::fetchTmuxSessions: `tmux ls` output to session names. */
module SessionList {
  import opened Text
  import opened ApiConstants

  /** The session name on a line of `tmux ls`: the text before its first separator. */
  function SessionName(line: string): (name: string)
    requires LineSeparator in line
    ensures StartsWith(line, name) && LineSeparator !in name
    ensures |name| < |line| && line[|name|] == LineSeparator
  {
    SplitFirst(line, LineSeparator);
    Split(line, LineSeparator)[0]
  }

  /** The names on the lines that hold a separator, in line order; other lines are dropped. */
  function SessionNames(lines: seq<string>): (names: seq<string>)
    ensures |names| <= |lines|
    ensures forall i :: 0 <= i < |names| ==> LineSeparator !in names[i]
    decreases |lines|
  {
    if lines == [] then []
    else
      var last := lines[|lines| - 1];
      SessionNames(lines[..|lines| - 1]) + (if LineSeparator in last then [SessionName(last)] else [])
  }

  /** The read loop of fetchTmuxSessions, over the lines the process printed. */
  method FetchTmuxSessions(lines: seq<string>) returns (sessions: seq<string>)
    ensures sessions == SessionNames(lines)
  {
    sessions := [];
    var i := 0;
    while i < |lines|
      invariant 0 <= i <= |lines|
      invariant sessions == SessionNames(lines[..i])
    {
      assert lines[..i + 1][..i] == lines[..i];
      var line := lines[i];
      if LineSeparator in line {
        sessions := sessions + [SessionName(line)];
      }
      i := i + 1;
    }
    assert lines[..|lines|] == lines;
  }

  /** Line order is kept: the names of two blocks of lines are the names of each, in turn. */
  lemma {:induction false} SessionNamesAppend(a: seq<string>, b: seq<string>)
    ensures SessionNames(a + b) == SessionNames(a) + SessionNames(b)
    decreases |b|
  {
    if b == [] {
      assert a + b == a;
    } else {
      var b' := b[..|b| - 1];
      assert (a + b)[..|a + b| - 1] == a + b';
      assert (a + b)[|a + b| - 1] == b[|b| - 1];
      SessionNamesAppend(a, b');
    }
  }

  /** A name is reported exactly when some line with a separator carries it. */
  lemma {:induction false} SessionNamesMembers(lines: seq<string>, x: string)
    ensures x in SessionNames(lines) <==>
      exists j :: 0 <= j < |lines| && LineSeparator in lines[j] && x == SessionName(lines[j])
    decreases |lines|
  {
    if lines != [] {
      var init := lines[..|lines| - 1];
      SessionNamesMembers(init, x);
      if exists j :: 0 <= j < |lines| && LineSeparator in lines[j] && x == SessionName(lines[j]) {
        var j :| 0 <= j < |lines| && LineSeparator in lines[j] && x == SessionName(lines[j]);
        if j < |lines| - 1 {
          assert init[j] == lines[j];
        }
      }
      if x in SessionNames(init) {
        var j :| 0 <= j < |init| && LineSeparator in init[j] && x == SessionName(init[j]);
        assert lines[j] == init[j];
      }
    }
  }
}

=== FILE: text.dfy ===
/**
 * The QString and QStringList operations the runner relies on, over `string`
 * (QString) and `seq<string>` (QStringList). Word characters of `\w` are
 * restricted to ASCII.
 */
module Text {

  /** A character matched by `\w`. */
  predicate IsWordChar(c: char) {
    ('a' <= c <= 'z') || ('A' <= c <= 'Z') || ('0' <= c <= '9') || c == '_'
  }

  /** QString::startsWith: every string starts with the empty string. */
  predicate StartsWith(s: string, prefix: string) {
    |prefix| <= |s| && s[..|prefix|] == prefix
  }

  /** A run of `n` spaces. */
  function Spaces(n: nat): (r: string)
    ensures |r| == n && forall i :: 0 <= i < n ==> r[i] == ' '
  {
    seq(n, _ => ' ')
  }

  /**
   * QString::replace(before, after): every occurrence of `before`, scanned
   * left to right without overlap; inserted text is not scanned again. An
   * empty `before` puts `after` at every position, ends included.
   */
  function ReplaceAll(s: string, before: string, after: string): string
    decreases |s|
  {
    if before == [] then
      if s == [] then after else after + [s[0]] + ReplaceAll(s[1..], before, after)
    else if |s| < |before| then s
    else if s[..|before|] == before then after + ReplaceAll(s[|before|..], before, after)
    else [s[0]] + ReplaceAll(s[1..], before, after)
  }

  /** Text that cannot start an occurrence is copied through unchanged. */
  lemma {:induction false} ReplaceAllSkips(p: string, s: string, before: string, after: string)
    requires before != [] && before[0] !in p
    ensures ReplaceAll(p + s, before, after) == p + ReplaceAll(s, before, after)
    decreases |p|
  {
    var q := p + s;
    if p != [] {
      assert q[0] == p[0] && q[1..] == p[1..] + s;
      ReplaceAllSkips(p[1..], s, before, after);
      if |q| < |before| {
        assert ReplaceAll(s, before, after) == s;
      } else {
        assert q[..|before|] != before by {
          assert q[..|before|][0] == p[0];
        }
        assert ReplaceAll(q, before, after) == [p[0]] + (p[1..] + ReplaceAll(s, before, after));
        assert p == [p[0]] + p[1..];
      }
    } else {
      assert q == s;
    }
  }

  /** An occurrence at the start is replaced and the scan goes on after it. */
  lemma ReplaceAllHit(s: string, before: string, after: string)
    requires before != []
    ensures ReplaceAll(before + s, before, after) == after + ReplaceAll(s, before, after)
  {
    assert (before + s)[..|before|] == before;
    assert (before + s)[|before|..] == s;
  }

  /** After replacing a character by a text without it, the character is gone. */
  lemma {:induction false} ReplaceCharRemovesIt(s: string, c: char, after: string)
    requires c !in after
    ensures c !in ReplaceAll(s, [c], after)
  {
    if s != [] {
      ReplaceCharRemovesIt(s[1..], c, after);
    }
  }

  /**
   * Replacing a character keeps the text between its occurrences: the result
   * is the pieces of the split at that character, with `after` between them.
   */
  lemma {:induction false} ReplaceCharPieces(s: string, c: char, after: string)
    ensures ReplaceAll(s, [c], after) == Join(Split(s, c), after)
    decreases |s|
  {
    if s != [] {
      ReplaceCharPieces(s[1..], c, after);
      var rest := Split(s[1..], c);
      if s[0] == c {
        assert s[..1] == [c];
        assert ([[]] + rest)[1..] == rest;
      } else {
        assert s[..1] != [c];
        var parts := [[s[0]] + rest[0]] + rest[1..];
        if |rest| > 1 {
          assert parts[1..] == rest[1..];
          assert ([s[0]] + rest[0]) + after + Join(rest[1..], after)
              == [s[0]] + (rest[0] + after + Join(rest[1..], after));
        }
      }
    }
  }

  /**
   * QString::split(sep) with empty parts kept: the maximal pieces of `s`
   * between separators, in order.
   */
  function Split(s: string, sep: char): (parts: seq<string>)
    ensures |parts| >= 1
    ensures forall i :: 0 <= i < |parts| ==> sep !in parts[i]
    decreases |s|
  {
    if s == [] then [[]]
    else
      var rest := Split(s[1..], sep);
      if s[0] == sep then [[]] + rest
      else [[s[0]] + rest[0]] + rest[1..]
  }

  /** QStringList::join(sep): the parts with the text `sep` between each two of them. */
  function Join(parts: seq<string>, sep: string): string
    decreases |parts|
  {
    if |parts| == 0 then []
    else if |parts| == 1 then parts[0]
    else parts[0] + sep + Join(parts[1..], sep)
  }

  /** Splitting loses nothing: joining the parts gives the string back. */
  lemma {:induction false} JoinSplit(s: string, sep: char)
    ensures Join(Split(s, sep), [sep]) == s
    decreases |s|
  {
    if s != [] {
      JoinSplit(s[1..], sep);
      var rest := Split(s[1..], sep);
      if s[0] != sep && |rest| > 1 {
        assert ([s[0]] + rest[0]) + [sep] + Join(rest[1..], [sep])
            == [s[0]] + (rest[0] + [sep] + Join(rest[1..], [sep]));
        assert ([[s[0]] + rest[0]] + rest[1..])[1..] == rest[1..];
      }
      assert s == [s[0]] + s[1..];
    }
  }

  lemma {:induction false} SplitAfterPiece(x: string, y: string, sep: char)
    requires sep !in x
    ensures Split(x + y, sep) == [x + Split(y, sep)[0]] + Split(y, sep)[1..]
    decreases |x|
  {
    var ys := Split(y, sep);
    if x != [] {
      assert (x + y)[0] == x[0] && (x + y)[1..] == x[1..] + y;
      SplitAfterPiece(x[1..], y, sep);
      var rest := Split(x[1..] + y, sep);
      assert rest == [x[1..] + ys[0]] + ys[1..];
      assert Split(x + y, sep) == [[x[0]] + rest[0]] + rest[1..];
      assert [x[0]] + (x[1..] + ys[0]) == x + ys[0];
    } else {
      assert x + y == y;
      assert x + ys[0] == ys[0];
      assert ys == [ys[0]] + ys[1..];
    }
  }

  /** A character other than the separator that no part holds is not in the joined text. */
  lemma {:induction false} JoinAvoids(parts: seq<string>, sep: char, c: char)
    requires c != sep
    requires forall i :: 0 <= i < |parts| ==> c !in parts[i]
    ensures c !in Join(parts, [sep])
    decreases |parts|
  {
    if |parts| > 1 {
      JoinAvoids(parts[1..], sep, c);
    }
  }

  /** Joining parts free of the separator and splitting again gives the parts back. */
  lemma {:induction false} SplitJoin(parts: seq<string>, sep: char)
    requires |parts| >= 1
    requires forall i :: 0 <= i < |parts| ==> sep !in parts[i]
    ensures Split(Join(parts, [sep]), sep) == parts
    decreases |parts|
  {
    if |parts| == 1 {
      SplitAfterPiece(parts[0], [], sep);
      assert parts[0] + [] == parts[0];
      assert Split([], sep) == [[]];
      assert Split(parts[0], sep) == [parts[0] + []] + [];
    } else {
      var tail := [sep] + Join(parts[1..], [sep]);
      assert Join(parts, [sep]) == parts[0] + tail;
      SplitAfterPiece(parts[0], tail, sep);
      SplitJoin(parts[1..], sep);
      assert tail[1..] == Join(parts[1..], [sep]);
      assert Split(tail, sep) == [[]] + parts[1..];
      assert Split(tail, sep)[0] == [] && Split(tail, sep)[1..] == parts[1..];
      assert parts[0] + [] == parts[0];
      assert parts == [parts[0]] + parts[1..];
    }
  }

  /** The first part of a split is the text before the first separator. */
  lemma {:induction false} SplitFirst(s: string, sep: char)
    ensures StartsWith(s, Split(s, sep)[0])
    ensures sep in s ==> |Split(s, sep)[0]| < |s| && s[|Split(s, sep)[0]|] == sep
    ensures sep !in s ==> Split(s, sep) == [s]
    decreases |s|
  {
    if s != [] {
      SplitFirst(s[1..], sep);
      if s[0] != sep {
        assert sep in s ==> sep in s[1..];
        assert s == [s[0]] + s[1..];
      }
    }
  }

  /** QList::indexOf: the first position of `x`, or -1. */
  function IndexOf<T(==)>(xs: seq<T>, x: T): (i: int)
    ensures -1 <= i < |xs|
    ensures i == -1 <==> x !in xs
    ensures 0 <= i ==> xs[i] == x && x !in xs[..i]
    decreases |xs|
  {
    if xs == [] then -1
    else if xs[0] == x then 0
    else
      var j := IndexOf(xs[1..], x);
      if j == -1 then -1
      else
        assert xs[..j + 1] == [xs[0]] + xs[1..][..j];
        j + 1
  }

  /** QList::removeOne: drops the first occurrence of `x`, if any. */
  function RemoveFirst<T(==)>(xs: seq<T>, x: T): (r: seq<T>)
    ensures x !in xs ==> r == xs
    ensures x in xs ==> |r| == |xs| - 1
    decreases |xs|
  {
    if xs == [] then []
    else if xs[0] == x then xs[1..]
    else
      assert x in xs ==> x in xs[1..];
      [xs[0]] + RemoveFirst(xs[1..], x)
  }

  /** removeOne passes over a stretch without the value. */
  lemma {:induction false} RemoveFirstAfter<T>(a: seq<T>, b: seq<T>, x: T)
    requires x !in a
    ensures RemoveFirst(a + b, x) == a + RemoveFirst(b, x)
    decreases |a|
  {
    if a != [] {
      assert (a + b)[0] == a[0] && (a + b)[1..] == a[1..] + b;
      RemoveFirstAfter(a[1..], b, x);
      assert a == [a[0]] + a[1..];
    } else {
      assert a + b == b;
    }
  }

  /** Removing the first occurrence takes exactly one copy of it out. */
  lemma {:induction false} RemoveFirstCount<T>(xs: seq<T>, x: T)
    ensures multiset(RemoveFirst(xs, x)) == multiset(xs) - multiset{x}
    decreases |xs|
  {
    if xs != [] {
      assert xs == [xs[0]] + xs[1..];
      RemoveFirstCount(xs[1..], x);
    }
  }

  /** QList::removeAll: drops every occurrence of `x`, keeping the order of the rest. */
  function RemoveAll<T(==)>(xs: seq<T>, x: T): (r: seq<T>)
    ensures x !in r
    ensures forall y :: y in xs && y != x ==> y in r
    decreases |xs|
  {
    if xs == [] then []
    else if xs[0] == x then RemoveAll(xs[1..], x)
    else [xs[0]] + RemoveAll(xs[1..], x)
  }

  /** Removing a value that is absent changes nothing. */
  lemma {:induction false} RemoveAllAbsent<T>(xs: seq<T>, x: T)
    requires x !in xs
    ensures RemoveAll(xs, x) == xs
    decreases |xs|
  {
    if xs != [] {
      assert xs == [xs[0]] + xs[1..];
      RemoveAllAbsent(xs[1..], x);
    }
  }

  /** Removing every occurrence takes out all copies of `x` and nothing else. */
  lemma {:induction false} RemoveAllCount<T>(xs: seq<T>, x: T)
    ensures multiset(RemoveAll(xs, x)) == multiset(xs)[x := 0]
    decreases |xs|
  {
    if xs != [] {
      assert xs == [xs[0]] + xs[1..];
      RemoveAllCount(xs[1..], x);
    }
  }

  /** Removal works piecewise, so the survivors keep their order. */
  lemma {:induction false} RemoveAllAppend<T>(a: seq<T>, b: seq<T>, x: T)
    ensures RemoveAll(a + b, x) == RemoveAll(a, x) + RemoveAll(b, x)
    decreases |a|
  {
    if a != [] {
      assert (a + b)[0] == a[0] && (a + b)[1..] == a[1..] + b;
      RemoveAllAppend(a[1..], b, x);
    } else {
      assert a + b == b;
    }
  }

  /** The pieces of a list of strings, one after the other. */
  function Concat<T>(xss: seq<seq<T>>): seq<T>
    decreases |xss|
  {
    if xss == [] then [] else xss[0] + Concat(xss[1..])
  }

  lemma ConcatDropEmpty<T>(p: seq<T>, ps: seq<seq<T>>)
    ensures Concat(RemoveAll([p] + ps, [])) == p + Concat(RemoveAll(ps, []))
  {
    assert ([p] + ps)[0] == p && ([p] + ps)[1..] == ps;
    if p == [] {
      assert p + Concat(RemoveAll(ps, [])) == Concat(RemoveAll(ps, []));
    } else {
      assert RemoveAll([p] + ps, []) == [p] + RemoveAll(ps, []);
      assert ([p] + RemoveAll(ps, []))[1..] == RemoveAll(ps, []);
    }
  }

  /**
   * The non-empty tokens of a line, taken together, are the line without its
   * separators: splitting and dropping empty tokens loses no other character.
   */
  lemma {:induction false} TokensCoverLine(line: string, sep: char)
    ensures Concat(RemoveAll(Split(line, sep), [])) == RemoveAll(line, sep)
    decreases |line|
  {
    if line != [] {
      TokensCoverLine(line[1..], sep);
      var rest := Split(line[1..], sep);
      var tail := Concat(RemoveAll(rest, []));
      assert line == [line[0]] + line[1..];
      if line[0] != sep {
        assert Concat(RemoveAll(Split(line, sep), [])) == [line[0]] + tail by {
          assert Split(line, sep) == [[line[0]] + rest[0]] + rest[1..];
          assert rest == [rest[0]] + rest[1..];
          ConcatDropEmpty(rest[0], rest[1..]);
          ConcatDropEmpty([line[0]] + rest[0], rest[1..]);
          assert ([line[0]] + rest[0]) + Concat(RemoveAll(rest[1..], []))
              == [line[0]] + (rest[0] + Concat(RemoveAll(rest[1..], [])));
        }
        assert RemoveAll(line, sep) == [line[0]] + RemoveAll(line[1..], sep);
      } else {
        assert Concat(RemoveAll(Split(line, sep), [])) == tail by {
          assert Split(line, sep) == [[]] + rest;
          ConcatDropEmpty([], rest);
        }
        assert RemoveAll(line, sep) == RemoveAll(line[1..], sep);
      }
    }
  }

  /** QMap::value(key, default). */
  function Lookup(m: map<string, string>, key: string, default: string): string {
    if key in m then m[key] else default
  }
}

=== FILE: wrappers.dfy ===
/** Option and Result, for the values the source reads with a default and for its one crash path. */
module Wrappers {

  datatype Option<+T> = None | Some(value: T) {
    /** The value, or `default` when absent (KConfigGroup::readEntry with a default). */
    function GetOr(default: T): T {
      match this
      case Some(v) => v
      case None => default
    }
  }

  datatype Result<+R, +E> = Success(value: R) | Failure(error: E)
}
